=== FILE: README.md ===
# CARZ BIDS car auction: a Dafny model

CARZ BIDS is a small car-auction site with three parts, and this project models the logic of each:

- `CarAuctionDB` in `server/database.py` is a SQLite store of users, auctions and bids.
- `server/server.js` is an Express API. Its route handlers check the request fields and forward the call to the store.
- `auction.js` holds the `CarAuction` page object. It keeps a cache of auctions, filters it, formats countdowns and specification labels, decides which bid panel to show, and runs the bid protocol with its offline fallback.

The model is functional:

- Each table is a sequence of records, and an `AUTOINCREMENT` sequence is a last-issued-id counter.
- Each store operation is a pure function from the tables to a reply and the new tables.
- The HTTP layer is a function from the request fields to an answer (reject at once, or forward a store call). It is composed with the store into end-to-end service functions.
- The bridge that runs the store in a child process is an input. It either returns the store's reply or fails with an error text.
- The client's clock is an explicit `now` in milliseconds.
- The network is an input datatype: the server accepted, the server rejected with a message, or no usable reply.
- Money is an integer throughout.

Modules, one per file:

| module | file | models |
|---|---|---|
| `Common` | common.dfy | `Option`, an order-preserving `Filter` and the subsequence relation |
| `Store` | store.dfy | the three tables and every `CarAuctionDB` operation, including the seeded data |
| `StoreInvariants` | store_invariants.dfy | the invariants the tables keep and the properties of operation sequences |
| `JsInt` | jsint.dfy | JavaScript `parseInt`, which reads the auction id from the URL, and the decimal text a template string gives |
| `Service` | service.dfy | the five route handlers, and their composition with the store |
| `Client` | client.dfy | filtering, countdown, bid panel, `loadAuctions` and the bid protocol |
| `SpecLabel` | spec_label.dfy | `formatSpecLabel` and its inverse |
| `Consistency` | consistency.dfy | the client's bid rule against the server's, through the URL and the handler |

Where the intended behaviour and the code differ, the model follows the code:

- `place_bid` never reads `end_time`. There is no minimum increment on the server: any amount above the current bid is taken.
- The repeat-bidder check runs before the price check.
- Nothing in the schema stops a second bid by the same user on the same auction. That rule rests on `place_bid` alone, and the model proves `place_bid` keeps it.
- `get_auctions` has no `ORDER BY`, so the model claims membership, not order.
- `get_bids` inner joins with `users`, so a bid by a user id with no user row is accepted and then never listed.
- The bid handler parses the id before it checks the body. An id with no digits becomes `NaN`, which is sent as `null` and matches no auction. The answer is a 200 with the not-found message, not a 400.
- `loadAuctions` reads an undefined `transformedDbAuctions` when the response is OK. The resulting `ReferenceError` is caught, so the cache always becomes the built-in sample catalog.
- The page insists on a step of at least 1000 above the current bid. The server accepts a step of 1.

## Model

| member | source | states |
|---|---|---|
| Common.Filter | auction.js:266-311 | the kept elements are exactly those satisfying the condition, in their original order (an order-preserving subsequence); each kept value occurs as often as in the input, so the length is the number of elements satisfying the condition |
| Common.FilterTwice | auction.js:271-306 | applying two filters in turn gives the same sequence as one filter whose condition is their conjunction |
| Common.FilterCongruent | auction.js:271-306 | two conditions that agree on every element present select the same sequence |
| Common.FilterKeepsAll | auction.js:271-306 | a condition every element meets keeps the whole sequence, as the switches' `default` branches do |
| Common.CountAtMostLength | server/database.py:155-160 | a count never exceeds the number of elements |
| Common.CountAppend | server/database.py:155-160 | the count over a concatenation is the sum of the counts of its parts |
| Common.CountSameMultiset | server/database.py:161 | reordering a sequence, as `ORDER BY` does, does not change how many elements meet a condition |
| Common.FilteredMultiplicity | server/database.py:161 | two reorderings of each other keep each value equally often under a filter |
| Common.CountNone | server/database.py:155-160 | no element meeting the condition means none is counted |
| Common.FilterIdempotent | auction.js:266-311 | filtering twice by the same condition changes nothing |
| Store.FindLive | server/database.py:111-114 | finds a row with the id whose status is `'active'` if and only if one exists; a `None` id (SQL `NULL`) matches nothing |
| Store.WithCurrentBid | server/database.py:141-144 | the update changes `current_bid` of the rows with that id, and only that column of only those rows |
| Store.RegisterUser | server/database.py:56-71 | an email already present gives "Email already exists" and leaves every table alone; otherwise exactly one user is appended, with an id above every id issued before, and nothing else changes |
| Store.LoginUser | server/database.py:73-87 | succeeds exactly when some user has that email and that password, returning such a user; otherwise "Invalid credentials" |
| Store.FirstMatch | server/database.py:78-81 | a row matching both email and password, found if and only if one exists |
| Store.GetAuctions | server/database.py:89-104 | every active auction appears, and only active auctions, one row per active auction row; each row's bidder count is the number of distinct users who bid on it, so 0 with no bids |
| Store.PlaceBid | server/database.py:106-148 | the three checks in source order (missing or inactive auction, then a previous bid by the user, then an amount not above the current bid), each with its message and the tables unchanged; a success appends exactly one bid, sets that auction's current bid and changes nothing else |
| Store.Insert | server/database.py:161 | inserting into a list sorted by descending amount keeps it sorted and adds exactly that row |
| Store.SortByAmountDesc | server/database.py:161 | the result is sorted by descending amount and is a permutation of the input |
| Store.JoinOne | server/database.py:157-160 | one bid yields exactly one row per user row with its user id, each naming that user, and none when the bid is on another auction or the id is `NULL` |
| Store.NameRows | server/database.py:157-159 | one output row per matched user, pairing the bid with that user's name and nothing else |
| Store.Join | server/database.py:155-160 | the inner join: every row pairs a bid on the auction with an existing user's name, every such pair appears, and the row count is the number of matching (bid, user) pairs |
| Store.JoinOfNoAuction | server/database.py:160 | a `NULL` auction id joins nothing |
| Store.GetBids | server/database.py:150-168 | a permutation of the inner join (one row per matching bid and user, with that user's name), in non-increasing order of amount; nothing for a `NULL` id |
| Store.SampleUser | server/database.py:221-224 | the seeded test user has the id it is given and the fixed email `test@example.com`, password `password123` and name `Test User` |
| Store.SampleAuction | server/database.py:185-218 | each seeded auction starts with its current bid equal to its starting bid and is active |
| Store.SampleData | server/database.py:170-226 | after the reset there are three auctions, one user and no bids, and every auction is active at its starting price |
| StoreInvariants.HighestBid | server/database.py:130-144 | the largest bid amount on an auction, or the floor when no bid is higher |
| StoreInvariants.HighestBidAppend | server/database.py:135-144 | appending a bid moves the highest amount only when the bid is on that auction and above it |
| StoreInvariants.SameIdSameAuction | server/database.py:27-28 | with the primary key, an auction is determined by its id |
| StoreInvariants.AcceptedBidTarget | server/database.py:111-133 | a success was on the one active auction with that id, and the amount exceeded its current bid |
| StoreInvariants.NewPriceKeepsIds | server/database.py:141-144 | the price update keeps the auction keys unique and issued |
| StoreInvariants.NewBidKeepsKeys | server/database.py:120-139 | a bid with a fresh id from a user with no bid on that auction keeps one bid per user per auction |
| StoreInvariants.AcceptedBidKeepsKeys | server/database.py:15-51 | an accepted bid keeps every primary key unique, the emails unique and every id issued by its sequence |
| StoreInvariants.AcceptedBidKeepsReferences | server/database.py:135-139 | an accepted bid still refers to an existing auction |
| StoreInvariants.AcceptedBidKeepsPrices | server/database.py:130-144 | after an accepted bid each auction's current bid is still the larger of its starting bid and its highest bid |
| StoreInvariants.PlaceBidPreservesValid | server/database.py:106-148 | whatever its outcome, `place_bid` keeps every invariant: unique keys, one bid per user per auction, issued ids, known auctions, and prices that track the bids |
| StoreInvariants.PlaceBidRaisesPrice | server/database.py:131-144 | on success the target's current bid strictly rises to the amount, other auctions and the users are untouched, and the old bids are kept with one new bid after them |
| StoreInvariants.PlaceBidAddsOneBidder | server/database.py:95-99 | on success the auction's distinct-bidder count grows by exactly one, and every other auction's count stays put |
| StoreInvariants.FindLiveIgnoresEndTime | server/database.py:112-114 | the lookup of the auction does not depend on the end times |
| StoreInvariants.PlaceBidIgnoresEndTime | server/database.py:106-133 | changing every end time does not change any reply of `place_bid` |
| StoreInvariants.RegisterPreservesValid | server/database.py:17-18 | registration keeps ids and emails unique and every invariant intact |
| StoreInvariants.RegisterThenLogin | server/database.py:56-87 | a fresh registration can then log in with the same email and password and gets back the new user |
| StoreInvariants.RegisterTwice | server/database.py:18 | a second registration with the same email is refused and leaves exactly one user with that email |
| StoreInvariants.SampleDataValid | server/database.py:170-226 | the seeded tables satisfy every invariant |
| StoreInvariants.SeededFirstBid | server/database.py:131 | on the seeded tables a bid one unit above the starting price of auction 1 is accepted |
| StoreInvariants.SeededRepeatBid | server/database.py:120-128 | the same user is then refused as a repeat bidder for every amount, because that check comes before the price check |
| StoreInvariants.SeededBidderCount | server/database.py:95 | the seeded auction then counts exactly one bidder |
| StoreInvariants.SeededMatchingBid | server/database.py:130-133 | another user offering the new price is refused as not higher |
| StoreInvariants.UnissuedIdRefused | server/database.py:111-118 | in a consistent store, an id above the last one issued names no auction and is refused with the tables unchanged |
| StoreInvariants.SeededUnknownAuction | server/database.py:111-118 | on the seeded tables, auction id 4 and a `NULL` id are both refused as not found |
| StoreInvariants.UnknownBidderHidden | server/database.py:135-139 | a bid by a user id with no user row is accepted but never listed in that auction's bid history |
| StoreInvariants.OneOwnerPerId | server/database.py:17 | with unique user ids, a bid's `user_id` matches at most one user row |
| StoreInvariants.JoinAtMostOneRowPerBid | server/database.py:155-160 | with unique user ids the join has at most one row per bid on the auction |
| StoreInvariants.BidHistoryRowsBounded | server/database.py:150-168 | in a consistent store the bid history lists each bid at most once, and so has no more rows than there are bids on the auction |
| StoreInvariants.JoinRowsPerBid | server/database.py:155-160 | with unique user ids the join shows each bid at most as often as it is stored |
| StoreInvariants.JoinStepCount | server/database.py:155-160 | the join's rows for one bid split into those of the first stored bid and those of the rest |
| StoreInvariants.OneBidRowsOf | server/database.py:155-160 | one bid's join rows all show that bid, at most once with unique user ids |
| StoreInvariants.DistinctBidsOnce | server/database.py:42-43 | with unique bid ids no bid row is stored twice |
| JsInt.TrimStart | server/server.js:128 | removes a prefix made only of white space and line terminators, and leaves text that does not start with one |
| JsInt.DigitRun | server/server.js:128 | the longest prefix of digits valid in the radix |
| JsInt.ParseUnsigned | server/server.js:128 | a number exactly when the first character after any `0x` prefix is a digit of the radix; text with no decimal digit gives `NaN` |
| JsInt.ParseSigned | server/server.js:128 | a number exactly when the digits after any sign form one; a negative number only after a leading `-`, and never a positive one after it |
| JsInt.ParseInt | server/server.js:128 | a number only when the text holds a decimal digit |
| JsInt.ParseIntNeedsADigit | server/server.js:128 | text with no decimal digit parses to `NaN` |
| JsInt.DecimalString | auction.js:473 | the decimal text of an integer starts with `-` exactly when the integer is negative |
| JsInt.ReadsSigned | server/server.js:128 | a signed decimal followed by text that does not continue the number (no digit, no `x` or `X`) reads back as the number |
| JsInt.ParseIntReadsDecimal | server/server.js:128 | leading white space, a decimal integer and text that does not continue the number (no digit, no `x` or `X`) parse to that integer |
| JsInt.ParseIntDecimal | server/server.js:128 | `parseInt` inverts the decimal text of every integer |
| JsInt.ParseIntIgnoresTrailingText | server/server.js:128 | `"12abc"` parses to 12 |
| JsInt.ParseIntSkipsSpaceAndSign | server/server.js:128 | `" -7px"` parses to -7 |
| JsInt.ParseIntReadsHex | server/server.js:128 | `"0x1F"` parses to 31 |
| JsInt.DigitRunInRadix | server/server.js:128 | in any radix the digit run is exactly the leading digits of that radix |
| JsInt.UnsignedAfterPrefix | server/server.js:128 | text starting with `0x` is neither trimmed nor signed, and its digits are read in base 16 after the prefix |
| JsInt.ParseIntReadsHexDigits | server/server.js:128 | `0x` followed by hex digits and any text that does not continue them parses to the value of those digits in base 16 |
| Service.RegisterRoute | server/server.js:69-80 | rejects with 400 and "All fields are required" exactly when a field is falsy; otherwise forwards all three fields |
| Service.LoginRoute | server/server.js:91-102 | rejects with 400 and "Email and password are required" exactly when a field is falsy; otherwise forwards both |
| Service.AuctionsRoute | server/server.js:113-116 | the listing is never rejected and always asks the store for the auctions |
| Service.BidRoute | server/server.js:126-142 | rejects with 400 and "User ID and amount are required" exactly when the user id or the amount is falsy (0 included); otherwise forwards the parsed id and both fields unchanged |
| Service.BidsRoute | server/server.js:153-156 | the bid history is never rejected; it asks the store for the parsed id, `null` when the path has no digit |
| Service.Respond | server/server.js:80-87 | a rejection is sent as decided; a store reply is sent verbatim with status 200; a bridge failure is a 500 whose error is "Server error: " followed by the failure text |
| Service.ServeRegister | server/server.js:69-88 | end to end: empty fields give 400 and the store is not touched; a failed bridge gives 500 and the store is not touched; otherwise the store's reply and new tables, with the fields passed as email, password, name |
| Service.ServeLogin | server/server.js:91-110 | end to end: 400 for an empty field, 500 for a failed bridge, otherwise 200 with the store's login reply as it is: success, carrying the matching user row, exactly when a user has both the email and the password |
| Service.ServeAuctions | server/server.js:113-123 | never a client error: 500 for a failed bridge, otherwise 200 with exactly the store's listing of the active auctions |
| Service.ServeBid | server/server.js:126-150 | end to end: 400 when the user id or the amount is 0, 500 for a failed bridge, otherwise the store's reply with status 200, business rejections included, for the parsed id |
| Service.ServeBids | server/server.js:153-164 | never a client error: 500 for a failed bridge, otherwise 200 with the auction's bid history, empty when the id has no digits |
| Client.ApplyFilters | auction.js:271-306 | keeps exactly the auctions inside the chosen price bucket and time window, in their order, each as often as in the list; with neither filter set it keeps all |
| Client.FilterAuctions | auction.js:266-309 | replaces only the filtered view, with an order-preserving subsequence of the auctions holding exactly those that pass both filters, each as often as in the list; the auctions themselves are untouched |
| Client.PriceBucketsPartition | auction.js:272-289 | the four price buckets are pairwise disjoint and cover every price; any other filter value keeps everything |
| Client.EndingSoonWithinWeek | auction.js:292-306 | everything "ending soon" is also "ending this week", and auctions already over pass both |
| Client.InPriceBucket | auction.js:272-289 | for one of the four options, true exactly when the option is the bucket whose range holds the price; any other value keeps every price |
| Client.InTimeWindow | auction.js:292-306 | with a day or less left every option keeps the auction; up to a week, all but "ending-soon"; beyond a week, neither "ending-soon" nor "ending-week" |
| Client.ApplyFiltersAsOneFilter | auction.js:271-306 | the two optional stages select the same sequence as one filter by both conditions |
| Client.BothStages | auction.js:271-306 | with both filters set, price then time is one filter by both conditions |
| Client.PriceStageOnly | auction.js:271-289 | with only the price filter set, its stage alone is the combined filter |
| Client.TimeStageOnly | auction.js:292-306 | with only the time filter set, its stage alone is the combined filter |
| Client.SearchTermIgnored | auction.js:266-311 | the search term has no effect on the filtered view |
| Client.FormatTimeRemaining | auction.js:414-426 | "ended" exactly when no time is left; otherwise hours below 24, minutes and seconds below 60, and days, hours, minutes and seconds add up to the whole seconds left |
| Client.MaxAmount | auction.js:386-388 | the largest amount among the bids, attained by one of them |
| Client.CreateBidForm | auction.js:375-412 | the ended panel exactly when the end time has passed, showing the highest amount or, with no bids, none; otherwise the already-bid panel exactly when the logged-in user holds a bid; otherwise a form with minimum current bid plus 1000, disabled exactly when nobody is logged in |
| Client.SampleCatalog | auction.js:100-223 | four auctions with ids 1 to 4, no bid records, all ending after now |
| Client.LoadAuctions | auction.js:75-97 | the cache always becomes the sample catalog, and its filtered view an order-preserving subsequence of it holding exactly the listings that pass the same filters; the user and filters are kept |
| Client.FindListing | auction.js:455 | the index of the first cached auction with the id, found if and only if one exists |
| Client.ResolveAmount | auction.js:457-462 | the argument when it is truthy (present and not 0), otherwise the input field's value |
| Client.BidderIdsAppend | auction.js:512 | one more bid adds its user to the distinct bidders and nothing else |
| Client.OfflineBid | auction.js:504-512 | appends the bid, takes its amount as the current bid, and the bidder count grows by one exactly when the user had no cached bid there; no other field changes |
| Client.ClientPlaceBid | auction.js:447-522 | no user: the login prompt, nothing sent; unknown id: nothing sent; an amount missing, 0 or below current bid plus 1000: nothing sent and nothing changed; otherwise it sends the user id and amount; a server rejection changes nothing; a success reloads the sample catalog; a transport failure appends one bid to that auction only, sets its current bid, recounts its distinct bidders and refilters |
| Client.OfflineBidderRecount | auction.js:501-514 | a sample auction showing 8 bidders with no bid records shows 1 after an offline bid |
| Client.OfflineRepeatBidder | auction.js:501-514 | an offline bid by a user who already bid is still appended, and the bidder count stays at the distinct count |
| SpecLabel.ToUpper | auction.js:624 | upper-cases an ASCII lower-case letter and keeps every other character |
| SpecLabel.SpaceBeforeUpper | auction.js:623 | a space is inserted before each capital, so the length grows by the number of capitals and every capital after the first position follows a space |
| SpecLabel.UpperFirst | auction.js:624 | only the first character changes, and it is upper-cased unless it is a line terminator |
| SpecLabel.FormatSpecLabel | auction.js:621-625 | the label is as long as the key plus its capitals; a key starting with a capital gets a leading space; a lower-case first letter is capitalised; every capital follows a space |
| SpecLabel.UnspaceSpaceBeforeUpper | auction.js:623 | removing the inserted spaces gives back the key |
| SpecLabel.FormatSpecLabelRoundTrip | auction.js:621-625 | the key can always be read back from its label |
| SpecLabel.FormatSpecLabelInjective | auction.js:621-625 | two different keys never get the same label |
| SpecLabel.NoCapitals | auction.js:623 | text without capitals is unchanged by the first replacement |
| SpecLabel.SpaceBeforeUpperAppend | auction.js:623 | the first replacement works piece by piece over concatenation |
| SpecLabel.CamelCaseWords | auction.js:621-625 | a lower-case word followed by a capitalised word becomes the two words separated by a space, the first capitalised |
| SpecLabel.TopSpeedLabel | auction.js:621-625 | `"topSpeed"` becomes `"Top Speed"` |
| SpecLabel.LeadingCapitalLabel | auction.js:621-625 | `"Engine"` becomes `" Engine"` |
| Consistency.BidPath | auction.js:473 | the id segment the page writes is non-empty, starts with `-` exactly for a negative id, and `parseInt` reads the id back from it |
| Consistency.BidPathReadsBack | auction.js:473 | the handler's `parseInt` reads back the auction id the page writes into the URL |
| Consistency.RouteForwardsBid | server/server.js:128-142 | a page request with non-zero fields is forwarded with the page's auction id |
| Consistency.SentBidPassesValidation | auction.js:464-481 | whatever the page sends passes the handler's field check and reaches the store for the same auction |
| Consistency.StoreAcceptsAbove | server/database.py:111-148 | an amount above every live price for the id, from a user with no bid there, is accepted and appended |
| Consistency.ServeBidAbove | server/server.js:126-143 | the same through the bid handler, with the path the page builds |
| Consistency.SentBidAccepted | auction.js:464-481 | the page's rule is stricter than the server's: what the page sends is accepted when the server's price is no higher than the page's and the user has no bid there |
| Consistency.ServerTakesOneUnitRaise | server/database.py:131 | the server accepts a raise of one unit on the seeded data through the full handler |
| Consistency.PageRefusesOneUnitRaise | auction.js:464-469 | the page refuses the same raise, asking for 1000 more, and sends nothing |
| Consistency.NonNumericIdNotFound | server/server.js:128-143 | a bid to a path with no digit is a 200 with "Auction not found or ended", and the tables are unchanged |
| Consistency.ServeBidPreservesValid | server/server.js:126-150 | every bid request, answered or not, keeps the store consistent |
| Consistency.ServeRegisterPreservesValid | server/server.js:69-88 | every registration request keeps the store consistent |

## Left out

- Rendering, the DOM, modals, galleries, alerts and event handlers in auction.js are left out. `createBidForm` is modelled as the decision it makes, not as HTML.
- `formatTimeRemaining` and `createBidForm` are modelled without their text rendering. The fields they format are modelled; `toLocaleString` formatting is left out.
- `startTimers` and its `setInterval` loop are left out. Every clock reading is the parameter `now`.
- `fetch` and the network are inputs, not modelled: `Transport` for the bid request. The `API_BASE` port in auction.js (3001) differs from the server's port (3000); which of the three outcomes happens is left to the input.
- `filterAuctions` calls the undefined `updateResultsInfo` after assigning the filtered view. The exception this raises is left out: the model keeps the assignment.
- The offline login and registration fallbacks are left out, because they draw ids from `Math.random`.
- The child-process bridge in server.js is not modelled. It is the `fault` input of the service functions. As written, the generated Python reads `data.email` on a dict and `__file__` under `python -c`, both of which fail. So in practice every forwarded call takes the `fault` branch, a 500; the model also covers the branch where the store is reached.
- `/api/init-data`, Express setup and `server/init_db.py` are left out as plumbing. `add_sample_data` itself is modelled as `Store.SampleData`.
- SQLite mechanics are left out: connections, DDL and the `CURRENT_TIMESTAMP` columns. The `image_url` column is left out too, because no modelled operation reads it.
- Rows are records in the model. `dict(row)` and `auction["current_bid"]` on default tuple rows would misbehave; that binding defect is left out.
- `REAL` amounts are integers in the model; every seeded amount is an integer.
- Concurrent `place_bid` calls are left out: its read, check and write are not in one transaction, and the model is sequential.
- Passwords are compared exactly, as the query does; hashing does not exist in the source and is not modelled.
- Service.ServeBid: the user id and amount are integers. A JSON string or other non-numeric truthy value would pass the handler, and what Python and SQLite then do with it is not modelled.
- JsInt.ParseUnsigned: digit values are unbounded integers, so rounding of numbers above 2^53 to the nearest double is not modelled.
- JsInt.DecimalString: the text is always the plain digit string. JavaScript writes a number of magnitude 10^21 or more in exponent form (`1e+21`, which `parseInt` reads as 1), and is exact only below 2^53; auction ids are assumed below 2^53, which SQLite's `AUTOINCREMENT` ids and the sample ids are.
- Consistency.BidPath: the segment is the plain digit text of the id, so JavaScript's exponent form and the 2^53 limit are not modelled, as for `JsInt.DecimalString`.
- Consistency.BidPathReadsBack: relies on that plain digit text, so in JavaScript it holds only for ids below 2^53; larger ids are not modelled.
- SpecLabel.FormatSpecLabel: `toUpperCase` is modelled on ASCII letters only; other characters that change case in Unicode are kept as they are.
- SpecLabel.ToUpper: only ASCII `a`-`z` are upper-cased. JavaScript's `toUpperCase` also maps other letters, for example dotless `ı` to `I`, and that is not modelled.
- SpecLabel.UpperFirst: the first character is upper-cased by the ASCII-only `ToUpper`, so a key starting with a non-ASCII lower-case letter keeps it in the model but not in JavaScript.
- SpecLabel.FormatSpecLabelRoundTrip: holds for the ASCII-only model. In JavaScript the key is not always recoverable: `"ıd"` and `"id"` both become `"Id"`.
- SpecLabel.FormatSpecLabelInjective: holds for the ASCII-only model. In JavaScript two keys that differ only in a first letter with the same upper case, such as `"id"` and `"ıd"`, get the same label.
- Service.ServeRegister: the three fields are strings, and a field counts as missing exactly when it is empty. A truthy non-string JSON value (a number, an object) passes the handler, and what Python then does with it is not modelled.
- Service.ServeLogin: the two fields are strings, as for registration; truthy non-string JSON values are not modelled.
- Client.LoadAuctions: images, galleries and specifications of the sample catalog are left out; only the fields the modelled methods read are kept.

=== FILE: client.dfy ===
/** The browser-side auction cache (`CarAuction` in auction.js): the
    auction list, the filtered view derived from it, the countdown text, the
    bid panel decision and the bid protocol with its offline fallback.
    Clock readings are an explicit `now` in milliseconds, and the network
    is an input saying how the bid request ended. */
module Client {
  import opened Common

  /** The smallest step above the current bid the page accepts. */
  const MinIncrement := 1000
  const MsPerDay := 24 * 60 * 60 * 1000

  datatype ClientUser = ClientUser(id: int, email: string, name: string)

  /** A bid as the page keeps it; `timestamp` is the clock at placement. */
  datatype LocalBid = LocalBid(userId: int, userName: string, amount: int, timestamp: int)

  /** One cached auction; images, gallery and specifications are left out. */
  datatype Listing = Listing(
    id: int,
    name: string,
    startingBid: int,
    currentBid: int,
    bidderCount: int,
    endTime: int,
    bids: seq<LocalBid>)

  /** The fields of the page object that the modelled methods read or write. */
  datatype Cache = Cache(
    currentUser: Option<ClientUser>,
    auctions: seq<Listing>,
    filtered: seq<Listing>,
    searchTerm: string,
    priceFilter: string,
    timeFilter: string)

  // ---------------------------------------------------------------------
  // Filtering
  // ---------------------------------------------------------------------

  /** The values of the price filter's options. */
  const PriceBuckets: seq<string> := ["0-50000", "50000-100000", "100000-500000", "500000+"]

  /** The option whose range holds a price. */
  function BucketOf(price: int): string {
    if price <= 50000 then PriceBuckets[0]
    else if price <= 100000 then PriceBuckets[1]
    else if price <= 500000 then PriceBuckets[2]
    else PriceBuckets[3]
  }

  /** The price filter's switch; any other value keeps the auction. */
  function InPriceBucket(filter: string, currentBid: int): (r: bool)
    ensures filter in PriceBuckets ==> (r <==> filter == BucketOf(currentBid))
    ensures filter !in PriceBuckets ==> r
  {
    if filter == "0-50000" then currentBid <= 50000
    else if filter == "50000-100000" then 50000 < currentBid <= 100000
    else if filter == "100000-500000" then 100000 < currentBid <= 500000
    else if filter == "500000+" then 500000 < currentBid
    else true
  }

  /** The time filter's switch on the milliseconds left (negative once the
      auction is over); any other value keeps the auction. */
  function InTimeWindow(filter: string, remaining: int): (r: bool)
    ensures remaining <= MsPerDay ==> r
    ensures MsPerDay < remaining <= 7 * MsPerDay ==> (r <==> filter != "ending-soon")
    ensures 7 * MsPerDay < remaining ==> (r <==> filter != "ending-soon" && filter != "ending-week")
  {
    if filter == "ending-soon" then remaining <= MsPerDay
    else if filter == "ending-week" then remaining <= 7 * MsPerDay
    else true
  }

  predicate PassesFilters(a: Listing, priceFilter: string, timeFilter: string, now: int) {
    InPriceBucket(priceFilter, a.currentBid) && InTimeWindow(timeFilter, a.endTime - now)
  }

  /** Both filters as one condition on a listing. */
  function Passes(priceFilter: string, timeFilter: string, now: int): Listing -> bool {
    (a: Listing) => PassesFilters(a, priceFilter, timeFilter, now)
  }

  /** The price stage's condition. */
  function ByPrice(priceFilter: string): Listing -> bool {
    (a: Listing) => InPriceBucket(priceFilter, a.currentBid)
  }

  /** The time stage's condition. */
  function ByTime(timeFilter: string, now: int): Listing -> bool {
    (a: Listing) => InTimeWindow(timeFilter, a.endTime - now)
  }

  /** The price filter, then the time filter, each applied only when its
      value is non-empty. The search term is not used. */
  function ApplyFilters(auctions: seq<Listing>, priceFilter: string, timeFilter: string, now: int): (r: seq<Listing>)
    ensures IsSubsequence(r, auctions)
    ensures forall a :: a in multiset(auctions) ==>
      multiset(r)[a] == if PassesFilters(a, priceFilter, timeFilter, now) then multiset(auctions)[a] else 0
    ensures forall a :: a in r <==> a in auctions && PassesFilters(a, priceFilter, timeFilter, now)
    ensures priceFilter == "" && timeFilter == "" ==> r == auctions
  {
    if priceFilter != "" && timeFilter != "" then
      BothStages(auctions, priceFilter, timeFilter, now);
      Filter(Filter(auctions, ByPrice(priceFilter)), ByTime(timeFilter, now))
    else if priceFilter != "" then
      PriceStageOnly(auctions, priceFilter, timeFilter, now);
      Filter(auctions, ByPrice(priceFilter))
    else if timeFilter != "" then
      TimeStageOnly(auctions, priceFilter, timeFilter, now);
      Filter(auctions, ByTime(timeFilter, now))
    else
      FilterKeepsAll(auctions, Passes(priceFilter, timeFilter, now));
      auctions
  }

  /** Both stages together keep what the combined condition keeps. */
  lemma BothStages(auctions: seq<Listing>, priceFilter: string, timeFilter: string, now: int)
    ensures Filter(Filter(auctions, ByPrice(priceFilter)), ByTime(timeFilter, now))
         == Filter(auctions, Passes(priceFilter, timeFilter, now))
  {
    FilterTwice(auctions, ByPrice(priceFilter), ByTime(timeFilter, now), Passes(priceFilter, timeFilter, now));
  }

  /** The price stage alone keeps what the combined condition keeps when
      the time filter is unset. */
  lemma PriceStageOnly(auctions: seq<Listing>, priceFilter: string, timeFilter: string, now: int)
    requires timeFilter == ""
    ensures Filter(auctions, ByPrice(priceFilter)) == Filter(auctions, Passes(priceFilter, timeFilter, now))
  {
    FilterCongruent(auctions, ByPrice(priceFilter), Passes(priceFilter, timeFilter, now));
  }

  /** The time stage alone keeps what the combined condition keeps when
      the price filter is unset. */
  lemma TimeStageOnly(auctions: seq<Listing>, priceFilter: string, timeFilter: string, now: int)
    requires priceFilter == ""
    ensures Filter(auctions, ByTime(timeFilter, now)) == Filter(auctions, Passes(priceFilter, timeFilter, now))
  {
    FilterCongruent(auctions, ByTime(timeFilter, now), Passes(priceFilter, timeFilter, now));
  }

  /** The two optional stages are one filter by both conditions: the
      filtered view is the order-preserving selection of exactly the
      listings that pass both, each as often as in the full list. */
  lemma ApplyFiltersAsOneFilter(auctions: seq<Listing>, priceFilter: string, timeFilter: string, now: int)
    ensures ApplyFilters(auctions, priceFilter, timeFilter, now) == Filter(auctions, Passes(priceFilter, timeFilter, now))
  {
    if priceFilter != "" && timeFilter != "" {
      BothStages(auctions, priceFilter, timeFilter, now);
    } else if priceFilter != "" {
      PriceStageOnly(auctions, priceFilter, timeFilter, now);
    } else if timeFilter != "" {
      TimeStageOnly(auctions, priceFilter, timeFilter, now);
    } else {
      FilterKeepsAll(auctions, Passes(priceFilter, timeFilter, now));
    }
  }

  /** `filterAuctions`: recomputes the filtered view from the full list and
      changes nothing else. */
  function FilterAuctions(c: Cache, now: int): (r: Cache)
    ensures r == c.(filtered := r.filtered)
    ensures IsSubsequence(r.filtered, c.auctions)
    ensures forall a :: a in r.filtered <==> a in c.auctions && PassesFilters(a, c.priceFilter, c.timeFilter, now)
    ensures forall a :: a in multiset(c.auctions) ==>
      multiset(r.filtered)[a] == if PassesFilters(a, c.priceFilter, c.timeFilter, now) then multiset(c.auctions)[a] else 0
    ensures c.priceFilter == "" && c.timeFilter == "" ==> r.filtered == c.auctions
  {
    c.(filtered := ApplyFilters(c.auctions, c.priceFilter, c.timeFilter, now))
  }

  /** The four price buckets split the prices: every current bid falls in
      exactly one, and a filter value outside the four keeps every price. */
  lemma PriceBucketsPartition(currentBid: int)
    ensures var buckets := ["0-50000", "50000-100000", "100000-500000", "500000+"];
      && (exists k :: 0 <= k < 4 && InPriceBucket(buckets[k], currentBid))
      && (forall k, l :: 0 <= k < l < 4 ==> !(InPriceBucket(buckets[k], currentBid) && InPriceBucket(buckets[l], currentBid)))
      && (forall f :: f !in buckets ==> InPriceBucket(f, currentBid))
  {
    var buckets := ["0-50000", "50000-100000", "100000-500000", "500000+"];
    if currentBid <= 50000 {
      assert InPriceBucket(buckets[0], currentBid);
    } else if currentBid <= 100000 {
      assert InPriceBucket(buckets[1], currentBid);
    } else if currentBid <= 500000 {
      assert InPriceBucket(buckets[2], currentBid);
    } else {
      assert InPriceBucket(buckets[3], currentBid);
    }
  }

  /** Everything "ending soon" is also "ending this week", and an auction
      already over passes both. */
  lemma EndingSoonWithinWeek(auctions: seq<Listing>, priceFilter: string, now: int)
    ensures forall a :: a in ApplyFilters(auctions, priceFilter, "ending-soon", now) ==>
      a in ApplyFilters(auctions, priceFilter, "ending-week", now)
    ensures forall a :: a in auctions && InPriceBucket(priceFilter, a.currentBid) && a.endTime < now ==>
      a in ApplyFilters(auctions, priceFilter, "ending-soon", now) &&
      a in ApplyFilters(auctions, priceFilter, "ending-week", now)
  {
  }

  /** The search term is stored but never applied. */
  lemma SearchTermIgnored(c: Cache, term: string, now: int)
    ensures FilterAuctions(c.(searchTerm := term), now).filtered == FilterAuctions(c, now).filtered
  {
  }

  // ---------------------------------------------------------------------
  // Countdown
  // ---------------------------------------------------------------------

  /** The countdown: "Auction Ended", or days, hours, minutes and seconds. */
  datatype TimeLeft = AuctionEnded | Remaining(days: int, hours: int, minutes: int, seconds: int)

  /** `formatTimeRemaining`: whole seconds left, split into d/h/m/s by
      repeated floor division. */
  function FormatTimeRemaining(endTime: int, now: int): (r: TimeLeft)
    ensures r.AuctionEnded? <==> endTime - now <= 0
    ensures r.Remaining? ==>
      && r.days >= 0 && 0 <= r.hours < 24 && 0 <= r.minutes < 60 && 0 <= r.seconds < 60
      && r.days * 86400 + r.hours * 3600 + r.minutes * 60 + r.seconds == (endTime - now) / 1000
  {
    var diff := endTime - now;
    if diff <= 0 then AuctionEnded
    else
      var seconds := diff / 1000;
      var minutes := seconds / 60;
      var hours := minutes / 60;
      var days := hours / 24;
      assert seconds == minutes * 60 + seconds % 60;
      assert minutes == hours * 60 + minutes % 60;
      assert hours == days * 24 + hours % 24;
      Remaining(days, hours % 24, minutes % 60, seconds % 60)
  }

  // ---------------------------------------------------------------------
  // Bid panel
  // ---------------------------------------------------------------------

  /** What `createBidForm` shows under an auction card. */
  datatype BidPanel =
    | EndedPanel(winningBid: Option<int>)         // "Auction Ended", winning bid or "No bids placed"
    | AlreadyBidPanel                             // "You have already placed a bid on this vehicle"
    | BidFormPanel(minimum: int, disabled: bool)  // input with its minimum; button disabled when logged out

  /** `Math.max` over the bid amounts. */
  function MaxAmount(bids: seq<LocalBid>): (m: int)
    requires |bids| > 0
    ensures exists b :: b in bids && b.amount == m
    ensures forall b :: b in bids ==> b.amount <= m
  {
    if |bids| == 1 then bids[0].amount
    else
      var rest := MaxAmount(bids[1..]);
      assert forall b :: b in bids ==> b == bids[0] || b in bids[1..];
      if bids[0].amount >= rest then bids[0].amount else rest
  }

  predicate HasLocalBid(a: Listing, userId: int) {
    exists b :: b in a.bids && b.userId == userId
  }

  /** `createBidForm`: ended first, then already bid, then the form. */
  function CreateBidForm(a: Listing, user: Option<ClientUser>, now: int): (r: BidPanel)
    ensures r.EndedPanel? <==> a.endTime <= now
    ensures r.EndedPanel? ==> (r.winningBid.None? <==> |a.bids| == 0)
    ensures r.EndedPanel? && r.winningBid.Some? ==>
      (exists b :: b in a.bids && b.amount == r.winningBid.value) &&
      (forall b :: b in a.bids ==> b.amount <= r.winningBid.value)
    ensures r.AlreadyBidPanel? <==> now < a.endTime && user.Some? && HasLocalBid(a, user.value.id)
    ensures r.BidFormPanel? ==> r.minimum == a.currentBid + MinIncrement && (r.disabled <==> user.None?)
  {
    if a.endTime <= now then
      EndedPanel(if |a.bids| > 0 then Some(MaxAmount(a.bids)) else None)
    else if user.Some? && HasLocalBid(a, user.value.id) then AlreadyBidPanel
    else BidFormPanel(a.currentBid + MinIncrement, user.None?)
  }

  // ---------------------------------------------------------------------
  // Loading
  // ---------------------------------------------------------------------

  /** `getOriginalSampleAuctions`, with end times counted from `now`. */
  function SampleCatalog(now: int): (r: seq<Listing>)
    ensures |r| == 4
    ensures forall i :: 0 <= i < |r| ==> r[i].id == i + 1 && r[i].bids == [] && now < r[i].endTime
  {
    [
      Listing(1, "Pagani Huayra", 2500000, 2650000, 8, now + 5 * MsPerDay, []),
      Listing(2, "Porsche Taycan Turbo", 185000, 210000, 12, now + 2 * MsPerDay, []),
      Listing(3, "Nissan Leaf", 28000, 31500, 5, now + 1 * MsPerDay, []),
      Listing(4, "Rolls Royce Phantom", 450000, 485000, 6, now + 3 * MsPerDay, [])
    ]
  }

  /** `loadAuctions` as it behaves: the successful-response branch reads an
      undefined variable and throws, and the handler of that error, like the
      other two branches, installs the sample catalog. So the list always
      becomes the sample catalog, whatever the server holds. */
  function LoadAuctions(c: Cache, now: int): (r: Cache)
    ensures r.auctions == SampleCatalog(now)
    ensures r.currentUser == c.currentUser && r.searchTerm == c.searchTerm
    ensures r.priceFilter == c.priceFilter && r.timeFilter == c.timeFilter
    ensures IsSubsequence(r.filtered, r.auctions)
    ensures forall a :: a in r.filtered <==> a in r.auctions && PassesFilters(a, c.priceFilter, c.timeFilter, now)
  {
    FilterAuctions(c.(auctions := SampleCatalog(now)), now)
  }

  // ---------------------------------------------------------------------
  // Placing a bid
  // ---------------------------------------------------------------------

  /** How the bid request ended: a JSON reply with `success` true, one with
      `success` false and an error text, or no usable reply at all. */
  datatype Transport = ServerOk | ServerRejected(message: string) | TransportError

  /** The body sent to `POST /auctions/:id/bid`. */
  datatype BidRequest = BidRequest(auctionId: int, userId: int, amount: int)

  datatype ClientOutcome =
    | LoginPrompt             // not logged in
    | MissingAuction          // the id names no cached auction: a TypeError
    | BelowMinimum(minimum: int)
    | Reloaded                // the server accepted; the list is reloaded
    | Rejected(message: string)
    | PlacedLocally           // offline fallback

  datatype ClientStep = ClientStep(outcome: ClientOutcome, request: Option<BidRequest>, cache: Cache)

  /** Index of the first cached auction with the id (`Array.find`). */
  function FindListing(auctions: seq<Listing>, id: int): (r: Option<nat>)
    ensures r.Some? ==> r.value < |auctions| && auctions[r.value].id == id
    ensures r.Some? ==> forall j :: 0 <= j < r.value ==> auctions[j].id != id
    ensures r.None? ==> forall a :: a in auctions ==> a.id != id
  {
    if |auctions| == 0 then None
    else if auctions[0].id == id then Some(0)
    else match FindListing(auctions[1..], id)
      case None => None
      case Some(k) => Some(k + 1)
  }

  /** The amount the bid uses: the argument, or, when that is falsy (absent,
      `NaN` or 0), the parsed value of the card's input field. */
  function ResolveAmount(amountArg: Option<int>, input: Option<int>): (r: Option<int>)
    ensures amountArg.Some? && amountArg.value != 0 ==> r == amountArg
    ensures amountArg.None? || amountArg.value == 0 ==> r == input
  {
    if amountArg.None? || amountArg.value == 0 then input else amountArg
  }

  /** The distinct user ids among cached bids. */
  function BidderIds(bids: seq<LocalBid>): set<int> {
    set b | b in bids :: b.userId
  }

  lemma BidderIdsAppend(bids: seq<LocalBid>, b: LocalBid)
    ensures BidderIds(bids + [b]) == BidderIds(bids) + {b.userId}
  {
    assert b in bids + [b];
    assert forall x :: x in bids ==> x in bids + [x];
  }

  /** The fallback mutation: append the bid, take its amount as the current
      bid, and recount the distinct bidders among the cached bids. */
  function OfflineBid(a: Listing, user: ClientUser, amount: int, now: int): (r: Listing)
    ensures r == a.(bids := r.bids, currentBid := amount, bidderCount := r.bidderCount)
    ensures r.bids == a.bids + [LocalBid(user.id, user.name, amount, now)]
    ensures r.bidderCount == |BidderIds(a.bids)| + if HasLocalBid(a, user.id) then 0 else 1
  {
    var bid := LocalBid(user.id, user.name, amount, now);
    var bids := a.bids + [bid];
    BidderIdsAppend(a.bids, bid);
    assert user.id in BidderIds(a.bids) <==> HasLocalBid(a, user.id);
    a.(bids := bids, currentBid := amount, bidderCount := |BidderIds(bids)|)
  }

  /** `placeBid(auctionId, bidAmount)`. */
  function ClientPlaceBid(c: Cache, auctionId: int, amountArg: Option<int>, input: Option<int>,
                          transport: Transport, now: int): (r: ClientStep)
    // no request leaves the cache alone
    ensures r.request.None? ==> r.cache == c
    ensures c.currentUser.None? ==> r == ClientStep(LoginPrompt, None, c)
    ensures c.currentUser.Some? && (forall a :: a in c.auctions ==> a.id != auctionId) ==>
      r == ClientStep(MissingAuction, None, c)
    // the local check, before any request
    ensures c.currentUser.Some? && FindListing(c.auctions, auctionId).Some? ==>
      var a := c.auctions[FindListing(c.auctions, auctionId).value];
      var amount := ResolveAmount(amountArg, input);
      (r.request.None? <==> amount.None? || amount.value == 0 || amount.value < a.currentBid + MinIncrement) &&
      (r.request.None? ==> r.outcome == BelowMinimum(a.currentBid + MinIncrement))
    // what is sent
    ensures r.request.Some? ==>
      && c.currentUser.Some?
      && r.request.value == BidRequest(auctionId, c.currentUser.value.id, ResolveAmount(amountArg, input).value)
      && exists a :: a in c.auctions && a.id == auctionId && a.currentBid + MinIncrement <= r.request.value.amount
    // a structured rejection changes nothing
    ensures r.request.Some? && transport.ServerRejected? ==>
      r.outcome == Rejected(transport.message) && r.cache == c
    // success reloads, which installs the sample catalog
    ensures r.request.Some? && transport.ServerOk? ==>
      r.outcome == Reloaded && r.cache == LoadAuctions(c, now)
    // transport failure: exactly one cached auction takes the bid
    ensures r.request.Some? && transport.TransportError? ==>
      var i := FindListing(c.auctions, auctionId).value;
      var user := c.currentUser.value;
      var amount := r.request.value.amount;
      && r.outcome == PlacedLocally
      && |r.cache.auctions| == |c.auctions|
      && r.cache.auctions[i].bids == c.auctions[i].bids + [LocalBid(user.id, user.name, amount, now)]
      && r.cache.auctions[i].currentBid == amount
      && r.cache.auctions[i].bidderCount == |BidderIds(r.cache.auctions[i].bids)|
      && r.cache.auctions[i] == c.auctions[i].(bids := r.cache.auctions[i].bids,
                                             currentBid := amount,
                                             bidderCount := r.cache.auctions[i].bidderCount)
      && (forall j :: 0 <= j < |c.auctions| && j != i ==> r.cache.auctions[j] == c.auctions[j])
      && r.cache == FilterAuctions(c.(auctions := r.cache.auctions), now)
  {
    if c.currentUser.None? then ClientStep(LoginPrompt, None, c)
    else match FindListing(c.auctions, auctionId)
      case None => ClientStep(MissingAuction, None, c)
      case Some(i) =>
        var a := c.auctions[i];
        var user := c.currentUser.value;
        var amount := ResolveAmount(amountArg, input);
        if amount.None? || amount.value == 0 || amount.value < a.currentBid + MinIncrement then
          ClientStep(BelowMinimum(a.currentBid + MinIncrement), None, c)
        else
          var request := BidRequest(auctionId, user.id, amount.value);
          assert a in c.auctions;
          match transport
          case ServerOk => ClientStep(Reloaded, Some(request), LoadAuctions(c, now))
          case ServerRejected(message) => ClientStep(Rejected(message), Some(request), c)
          case TransportError =>
            var auctions := c.auctions[i := OfflineBid(a, user, amount.value, now)];
            ClientStep(PlacedLocally, Some(request), FilterAuctions(c.(auctions := auctions), now))
  }

  /** The fallback recounts bidders from the cached bids instead of adding
      one: a sample auction that shows 8 bidders but holds no bid records
      shows 1 after an offline bid. */
  lemma OfflineBidderRecount(user: ClientUser, now: int, priceFilter: string, timeFilter: string)
    ensures var c := Cache(Some(user), SampleCatalog(now), [], "", priceFilter, timeFilter);
      var r := ClientPlaceBid(c, 1, Some(2651000), None, TransportError, now);
      && c.auctions[0].bidderCount == 8
      && r.outcome == PlacedLocally
      && r.cache.auctions[0].bidderCount == 1
      && r.cache.auctions[0].currentBid == 2651000
  {
    var c := Cache(Some(user), SampleCatalog(now), [], "", priceFilter, timeFilter);
    var r := ClientPlaceBid(c, 1, Some(2651000), None, TransportError, now);
    assert r.cache.auctions[0].bids == [] + [LocalBid(user.id, user.name, 2651000, now)];
    BidderIdsAppend([], LocalBid(user.id, user.name, 2651000, now));
  }

  /** The fallback does not check for an earlier bid by the same user: a
      second offline bid is appended too, and the bidder count stays put. */
  lemma OfflineRepeatBidder(c: Cache, auctionId: int, amount: int, now: int)
    requires c.currentUser.Some?
    requires FindListing(c.auctions, auctionId).Some?
    requires HasLocalBid(c.auctions[FindListing(c.auctions, auctionId).value], c.currentUser.value.id)
    requires amount != 0 && c.auctions[FindListing(c.auctions, auctionId).value].currentBid + MinIncrement <= amount
    ensures var i := FindListing(c.auctions, auctionId).value;
      var r := ClientPlaceBid(c, auctionId, Some(amount), None, TransportError, now);
      && r.outcome == PlacedLocally
      && |r.cache.auctions[i].bids| == |c.auctions[i].bids| + 1
      && r.cache.auctions[i].bidderCount == |BidderIds(c.auctions[i].bids)|
  {
    var i := FindListing(c.auctions, auctionId).value;
    var r := ClientPlaceBid(c, auctionId, Some(amount), None, TransportError, now);
    var user := c.currentUser.value;
    var before := c.auctions[i].bids;
    assert r.cache.auctions[i].bids == before + [LocalBid(user.id, user.name, amount, now)];
    BidderIdsAppend(before, LocalBid(user.id, user.name, amount, now));
    var b :| b in before && b.userId == user.id;
    assert user.id in BidderIds(before);
    assert BidderIds(r.cache.auctions[i].bids) == BidderIds(before);
  }
}

=== FILE: common.dfy ===
/** Value types and sequence helpers shared by the store, the HTTP layer and
    the browser-side cache. */
module Common {

  /** Absent or present value; also stands for JavaScript's `NaN`/`null`
      results and Python's `None`. */
  datatype Option<+T> = None | Some(value: T)

  /** `sub` is obtained from `s` by deleting elements, keeping the relative
      order of the elements that remain. */
  predicate IsSubsequence<T(==)>(sub: seq<T>, s: seq<T>)
    decreases |s|
  {
    |sub| == 0 ||
    (|s| > 0 &&
     ((sub[0] == s[0] && IsSubsequence(sub[1..], s[1..])) || IsSubsequence(sub, s[1..])))
  }

  lemma {:induction false} SubsequenceReflexive<T>(s: seq<T>)
    ensures IsSubsequence(s, s)
  {
    if |s| > 0 {
      SubsequenceReflexive(s[1..]);
    }
  }

  lemma {:induction false} SubsequenceTransitive<T>(a: seq<T>, b: seq<T>, c: seq<T>)
    requires IsSubsequence(a, b) && IsSubsequence(b, c)
    ensures IsSubsequence(a, c)
    decreases |c|
  {
    if |a| > 0 {
      if IsSubsequence(b, c[1..]) {
        SubsequenceTransitive(a, b, c[1..]);
      } else if a[0] == b[0] && IsSubsequence(a[1..], b[1..]) {
        SubsequenceTransitive(a[1..], b[1..], c[1..]);
      } else {
        SubsequenceTransitive(a, b[1..], c[1..]);
      }
    }
  }

  /** How many elements of `s` satisfy `p`, counting repeats. */
  function Count<T>(s: seq<T>, p: T -> bool): nat {
    if |s| == 0 then 0 else (if p(s[0]) then 1 else 0) + Count(s[1..], p)
  }

  /** A count never exceeds the length. */
  lemma {:induction false} CountAtMostLength<T>(s: seq<T>, p: T -> bool)
    ensures Count(s, p) <= |s|
  {
    if |s| > 0 {
      CountAtMostLength(s[1..], p);
    }
  }

  /** Counting works piece by piece over concatenation. */
  lemma {:induction false} CountAppend<T>(a: seq<T>, b: seq<T>, p: T -> bool)
    ensures Count(a + b, p) == Count(a, p) + Count(b, p)
  {
    if |a| > 0 {
      assert (a + b)[1..] == a[1..] + b;
      CountAppend(a[1..], b, p);
    } else {
      assert a + b == b;
    }
  }

  /** No element meeting the condition means a count of zero. */
  lemma {:induction false} CountNone<T>(s: seq<T>, p: T -> bool)
    requires forall x :: x in s ==> !p(x)
    ensures Count(s, p) == 0
  {
    if |s| > 0 {
      assert forall x :: x in s[1..] ==> x in s;
      CountNone(s[1..], p);
    }
  }

  /** The elements of `s` that satisfy `p`, in their original order
      (JavaScript's `Array.prototype.filter`, a SQL `WHERE`). Every element
      that satisfies `p` is kept as often as it occurs. */
  function Filter<T(==)>(s: seq<T>, p: T -> bool): (r: seq<T>)
    ensures |r| == Count(s, p) <= |s|
    ensures forall x :: x in multiset(s) ==> multiset(r)[x] == if p(x) then multiset(s)[x] else 0
    ensures forall x :: x in r ==> x in s && p(x)
    ensures forall x :: x in s && p(x) ==> x in r
    ensures IsSubsequence(r, s)
  {
    if |s| == 0 then []
    else
      var rest := Filter(s[1..], p);
      assert s == [s[0]] + s[1..];
      assert multiset(s) == multiset{s[0]} + multiset(s[1..]);
      if p(s[0]) then
        assert ([s[0]] + rest)[1..] == rest;
        assert multiset([s[0]] + rest) == multiset{s[0]} + multiset(rest);
        [s[0]] + rest
      else rest
  }

  /** Filtering twice keeps exactly what one filter by the conjunction keeps. */
  lemma {:induction false} FilterTwice<T>(s: seq<T>, p: T -> bool, q: T -> bool, both: T -> bool)
    requires forall x :: x in s ==> both(x) == (p(x) && q(x))
    ensures Filter(Filter(s, p), q) == Filter(s, both)
  {
    if |s| > 0 {
      assert forall x :: x in s[1..] ==> x in s;
      FilterTwice(s[1..], p, q, both);
      if p(s[0]) {
        var rest := Filter(s[1..], p);
        assert Filter(s, p) == [s[0]] + rest;
        assert ([s[0]] + rest)[1..] == rest;
      }
    }
  }

  /** Reordering does not change a count: it depends only on the multiset. */
  lemma CountSameMultiset<T>(x: seq<T>, y: seq<T>, p: T -> bool)
    requires multiset(x) == multiset(y)
    ensures Count(x, p) == Count(y, p)
  {
    var fx, fy := Filter(x, p), Filter(y, p);
    forall z
      ensures multiset(fx)[z] == multiset(fy)[z]
    {
      FilteredMultiplicity(x, y, p, z);
    }
    MultisetExtensional(multiset(fx), multiset(fy));
    assert |fx| == |multiset(fx)| && |fy| == |multiset(fy)|;
  }

  /** Multisets with the same multiplicities are equal. */
  lemma MultisetExtensional<T>(a: multiset<T>, b: multiset<T>)
    requires forall z :: a[z] == b[z]
    ensures a == b
  {
  }

  /** Two reorderings of each other keep each value equally often under a filter. */
  lemma FilteredMultiplicity<T>(x: seq<T>, y: seq<T>, p: T -> bool, z: T)
    requires multiset(x) == multiset(y)
    ensures multiset(Filter(x, p))[z] == multiset(Filter(y, p))[z]
  {
    if z in multiset(x) {
      assert z in multiset(y);
    } else {
      assert z !in Filter(x, p) && z !in Filter(y, p);
    }
  }

  /** Filtering depends only on what the condition says about the elements present. */
  lemma {:induction false} FilterCongruent<T>(s: seq<T>, p: T -> bool, q: T -> bool)
    requires forall x :: x in s ==> p(x) == q(x)
    ensures Filter(s, p) == Filter(s, q)
  {
    if |s| > 0 {
      assert forall x :: x in s[1..] ==> x in s;
      FilterCongruent(s[1..], p, q);
    }
  }

  /** A condition every element meets keeps the whole sequence. */
  lemma {:induction false} FilterKeepsAll<T>(s: seq<T>, p: T -> bool)
    requires forall x :: x in s ==> p(x)
    ensures Filter(s, p) == s
  {
    if |s| > 0 {
      assert forall x :: x in s[1..] ==> x in s;
      FilterKeepsAll(s[1..], p);
      assert p(s[0]);
      assert Filter(s, p) == [s[0]] + Filter(s[1..], p);
      assert s == [s[0]] + s[1..];
    }
  }

  lemma {:induction false} FilterIdempotent<T>(s: seq<T>, p: T -> bool)
    ensures Filter(Filter(s, p), p) == Filter(s, p)
  {
    if |s| > 0 {
      FilterIdempotent(s[1..], p);
      if p(s[0]) {
        var rest := Filter(s[1..], p);
        assert ([s[0]] + rest)[1..] == rest;
      }
    }
  }
}

=== FILE: consistency.dfy ===
/** How the three parts fit together: the page's bid rule against the
    server's, through the route handler and the URL the page builds, and the
    store invariants seen through the HTTP layer. */
module Consistency {
  import opened Common
  import opened JsInt
  import Store
  import StoreInvariants
  import Service
  import Client

  /** The page builds `/auctions/${auctionId}/bid`; the handler reads the id
      back with `parseInt`. */
  function BidPath(auctionId: int): (path: string)
    ensures |path| > 0 && (path[0] == '-' <==> auctionId < 0)
    ensures ParseInt(path) == Some(auctionId)
  {
    ParseIntDecimal(auctionId);
    DecimalString(auctionId)
  }

  lemma BidPathReadsBack(auctionId: int)
    ensures ParseInt(BidPath(auctionId)) == Some(auctionId)
  {
    ParseIntDecimal(auctionId);
  }

  /** The bid handler forwards the id it reads from the page's path. */
  lemma RouteForwardsBid(auctionId: int, userId: int, amount: int)
    requires userId != 0 && amount != 0
    ensures Service.BidRoute(BidPath(auctionId), Service.Num(userId), Service.Num(amount))
      == Service.Forward(Service.PlaceBidCall(Some(auctionId), Service.Num(userId), Service.Num(amount)))
  {
    var path := BidPath(auctionId);
    var d := Service.BidRoute(path, Service.Num(userId), Service.Num(amount));
    assert d.Forward? && d.call == Service.PlaceBidCall(ParseInt(path), Service.Num(userId), Service.Num(amount));
    BidPathReadsBack(auctionId);
  }

  /** A request the page sends reaches the store: the handler reads the same
      auction id back from the path, and neither body field is falsy. */
  lemma SentBidPassesValidation(c: Client.Cache, auctionId: int, amountArg: Option<int>, input: Option<int>,
                                transport: Client.Transport, now: int)
    requires Client.ClientPlaceBid(c, auctionId, amountArg, input, transport, now).request.Some?
    requires c.currentUser.value.id != 0
    ensures var req := Client.ClientPlaceBid(c, auctionId, amountArg, input, transport, now).request.value;
      Service.BidRoute(BidPath(auctionId), Service.Num(req.userId), Service.Num(req.amount))
        == Service.Forward(Service.PlaceBidCall(Some(auctionId), Service.Num(req.userId), Service.Num(req.amount)))
  {
    var req := Client.ClientPlaceBid(c, auctionId, amountArg, input, transport, now).request.value;
    assert req.userId != 0 && req.amount != 0 by {
      assert Client.FindListing(c.auctions, auctionId).Some?;
    }
    RouteForwardsBid(auctionId, req.userId, req.amount);
  }

  /** The store side of the comparison: a bid above a price the live
      auction does not exceed, by a user with no bid on it, is accepted. */
  lemma StoreAcceptsAbove(db: Store.Db, auctionId: int, userId: int, amount: int, price: int)
    requires price < amount
    requires exists a :: a in db.auctions && Store.Live(a, Some(auctionId))
    requires forall a :: a in db.auctions && Store.Live(a, Some(auctionId)) ==> a.currentBid <= price
    requires !Store.HasBid(db.bids, auctionId, userId)
    ensures var step := Store.PlaceBid(db, Some(auctionId), userId, amount);
      step.reply == Store.BidPlaced &&
      step.db.bids == db.bids + [Store.Bid(db.lastBidId + 1, auctionId, userId, amount)]
  {
    var step := Store.PlaceBid(db, Some(auctionId), userId, amount);
    assert step.reply == Store.BidPlaced by {
      assert forall a :: a in db.auctions && Store.Live(a, Some(auctionId)) ==> a.currentBid < amount;
    }
  }

  /** The same through the route handler, with the path the page builds. */
  lemma ServeBidAbove(db: Store.Db, auctionId: int, userId: int, amount: int, price: int)
    requires userId != 0 && amount != 0 && price < amount
    requires exists a :: a in db.auctions && Store.Live(a, Some(auctionId))
    requires forall a :: a in db.auctions && Store.Live(a, Some(auctionId)) ==> a.currentBid <= price
    requires !Store.HasBid(db.bids, auctionId, userId)
    ensures var e := Service.ServeBid(db, BidPath(auctionId), userId, amount, None);
      e.response == Service.Response(200, Store.BidPlaced) &&
      e.db.bids == db.bids + [Store.Bid(db.lastBidId + 1, auctionId, userId, amount)]
  {
    BidPathReadsBack(auctionId);
    StoreAcceptsAbove(db, auctionId, userId, amount, price);
  }

  /** The page's rule is stricter than the store's: whatever the page sends
      is accepted by the server when the server's price for that auction is
      no higher than the page shows and the user has no bid on it there. */
  lemma SentBidAccepted(db: Store.Db, c: Client.Cache, auctionId: int, amountArg: Option<int>, input: Option<int>,
                        transport: Client.Transport, now: int)
    requires Client.ClientPlaceBid(c, auctionId, amountArg, input, transport, now).request.Some?
    requires c.currentUser.value.id != 0
    requires exists a :: a in db.auctions && Store.Live(a, Some(auctionId))
    requires forall a :: a in db.auctions && Store.Live(a, Some(auctionId)) ==>
      a.currentBid <= c.auctions[Client.FindListing(c.auctions, auctionId).value].currentBid
    requires !Store.HasBid(db.bids, auctionId, c.currentUser.value.id)
    ensures var req := Client.ClientPlaceBid(c, auctionId, amountArg, input, transport, now).request.value;
      var e := Service.ServeBid(db, BidPath(auctionId), req.userId, req.amount, None);
      e.response == Service.Response(200, Store.BidPlaced) &&
      e.db.bids == db.bids + [Store.Bid(db.lastBidId + 1, auctionId, req.userId, req.amount)]
  {
    var req := Client.ClientPlaceBid(c, auctionId, amountArg, input, transport, now).request.value;
    var price := c.auctions[Client.FindListing(c.auctions, auctionId).value].currentBid;
    assert req.userId == c.currentUser.value.id && req.amount != 0 && price < req.amount by {
      assert Client.FindListing(c.auctions, auctionId).Some?;
    }
    ServeBidAbove(db, auctionId, req.userId, req.amount, price);
  }

  /** The server takes a raise of one unit on the seeded data. */
  lemma ServerTakesOneUnitRaise()
    ensures Service.ServeBid(Store.SampleData(), "1", 1, 15001, None).response == Service.Response(200, Store.BidPlaced)
  {
    ParseIntOne();
    StoreInvariants.SeededFirstBid();
  }

  /** The page refuses the same raise and sends nothing. */
  lemma PageRefusesOneUnitRaise(user: Client.ClientUser, now: int)
    ensures var listing := Client.Listing(1, "Toyota Camry 2022", 15000, 15000, 0, now + Client.MsPerDay, []);
      var c := Client.Cache(Some(user), [listing], [listing], "", "", "");
      var r := Client.ClientPlaceBid(c, 1, Some(15001), None, Client.TransportError, now);
      r.outcome == Client.BelowMinimum(16000) && r.request.None?
  {
    var listing := Client.Listing(1, "Toyota Camry 2022", 15000, 15000, 0, now + Client.MsPerDay, []);
    assert Client.FindListing([listing], 1) == Some(0);
  }

  /** A path segment without a digit parses to `NaN`, which the bridge sends
      as `null`; the store finds no auction and the answer is a 200 with the
      not-found message. */
  lemma NonNumericIdNotFound(db: Store.Db, idParam: string, userId: int, amount: int)
    requires NoDecimalDigit(idParam)
    requires userId != 0 && amount != 0
    ensures Service.ServeBid(db, idParam, userId, amount, None)
      == Service.Exchange(Service.Response(200, Store.Failure(Store.NotFoundOrEnded)), db)
  {
    ParseIntNeedsADigit(idParam);
  }

  /** Every bid request, answered or not, leaves a consistent store
      consistent. */
  lemma ServeBidPreservesValid(db: Store.Db, idParam: string, userId: int, amount: int, fault: Option<string>)
    requires StoreInvariants.Valid(db)
    ensures StoreInvariants.Valid(Service.ServeBid(db, idParam, userId, amount, fault).db)
  {
    if userId != 0 && amount != 0 && fault.None? {
      StoreInvariants.PlaceBidPreservesValid(db, ParseInt(idParam), userId, amount);
    }
  }

  lemma ServeRegisterPreservesValid(db: Store.Db, name: string, email: string, password: string, fault: Option<string>)
    requires StoreInvariants.Valid(db)
    ensures StoreInvariants.Valid(Service.ServeRegister(db, name, email, password, fault).db)
  {
    if |name| > 0 && |email| > 0 && |password| > 0 && fault.None? {
      StoreInvariants.RegisterPreservesValid(db, email, password, name);
    }
  }
}

=== FILE: jsint.dfy ===
/** JavaScript's global `parseInt(string)` with no radix argument, as the
    route handlers apply it to the `:id` path segment, and the decimal text
    a JavaScript integer turns into inside a template string. The algorithm
    follows section 19.2.5 of ECMA-262: skip leading white space and line
    terminators, take an optional sign, switch to radix 16 after a `0x` or
    `0X` prefix, then read the longest run of digits; no digit gives `NaN`
    (here `None`). */
module JsInt {
  import opened Common

  /** The WhiteSpace and LineTerminator code points of ECMA-262 (sections
      12.2 and 12.3), including every space separator of category Zs. */
  predicate IsJsSpace(c: char) {
    || c == '\t' || c == '\U{000B}' || c == '\U{000C}' || c == ' ' || c == '\U{00A0}'
    || c == '\U{FEFF}' || c == '\n' || c == '\r' || c == '\U{2028}' || c == '\U{2029}'
    || c == '\U{1680}' || ('\U{2000}' <= c <= '\U{200A}') || c == '\U{202F}'
    || c == '\U{205F}' || c == '\U{3000}'
  }

  predicate IsDecimalDigit(c: char) {
    '0' <= c <= '9'
  }

  /** The value of `c` as a digit in radix up to 36; 36 for anything that
      is a digit in no radix. */
  function DigitValue(c: char): (d: nat)
    ensures d <= 36
    ensures d < 10 <==> IsDecimalDigit(c)
  {
    if '0' <= c <= '9' then c as int - '0' as int
    else if 'a' <= c <= 'z' then c as int - 'a' as int + 10
    else if 'A' <= c <= 'Z' then c as int - 'A' as int + 10
    else 36
  }

  function TrimStart(s: string): (r: string)
    ensures |r| <= |s| && r == s[|s| - |r|..]
    ensures |r| == 0 || !IsJsSpace(r[0])
    ensures forall i :: 0 <= i < |s| - |r| ==> IsJsSpace(s[i])
  {
    if |s| > 0 && IsJsSpace(s[0]) then TrimStart(s[1..]) else s
  }

  /** The longest prefix of `s` made of digits of the radix. */
  function DigitRun(s: string, radix: nat): (r: string)
    ensures |r| <= |s| && r == s[..|r|]
    ensures forall i :: 0 <= i < |r| ==> DigitValue(r[i]) < radix
    ensures |r| == |s| || DigitValue(s[|r|]) >= radix
  {
    if |s| > 0 && DigitValue(s[0]) < radix then
      var rest := DigitRun(s[1..], radix);
      assert s == [s[0]] + s[1..];
      [s[0]] + rest
    else []
  }

  /** The number written by the digit string `ds` in the radix. */
  function ValueOf(ds: string, radix: nat): nat
  {
    if |ds| == 0 then 0
    else ValueOf(ds[..|ds| - 1], radix) * radix + DigitValue(ds[|ds| - 1])
  }

  /** The sign step: a leading `-` or `+` is consumed. */
  function DropSign(t: string): (u: string)
    ensures u == if |t| > 0 && (t[0] == '-' || t[0] == '+') then t[1..] else t
  {
    if |t| > 0 && (t[0] == '-' || t[0] == '+') then t[1..] else t
  }

  predicate HasHexPrefix(u: string) {
    |u| >= 2 && u[0] == '0' && (u[1] == 'x' || u[1] == 'X')
  }

  function RadixOf(u: string): nat {
    if HasHexPrefix(u) then 16 else 10
  }

  function AfterPrefix(u: string): string {
    if HasHexPrefix(u) then u[2..] else u
  }

  /** The digits after any sign, in the radix the prefix selects. */
  function ParseUnsigned(u: string): (r: Option<nat>)
    ensures r.Some? <==> |AfterPrefix(u)| > 0 && DigitValue(AfterPrefix(u)[0]) < RadixOf(u)
    ensures NoDecimalDigit(u) ==> r.None?
  {
    var ds := DigitRun(AfterPrefix(u), RadixOf(u));
    if |ds| == 0 then None else Some(ValueOf(ds, RadixOf(u)))
  }

  /** The text after the white space: an optional sign, then the digits. */
  function ParseSigned(t: string): (r: Option<int>)
    ensures r.Some? <==> ParseUnsigned(DropSign(t)).Some?
    ensures r.Some? && r.value < 0 ==> t[0] == '-'
    ensures r.Some? && |t| > 0 && t[0] == '-' ==> r.value <= 0
  {
    match ParseUnsigned(DropSign(t))
    case None => None
    case Some(v) => Some(if |t| > 0 && t[0] == '-' then -(v as int) else v)
  }

  /** `parseInt(s)`; `None` stands for `NaN`. */
  function ParseInt(s: string): (r: Option<int>)
    ensures r.Some? ==> exists i :: 0 <= i < |s| && IsDecimalDigit(s[i])
  {
    TrimmedNeedsADigit(s);
    ParseSigned(TrimStart(s))
  }

  predicate NoDecimalDigit(s: string) {
    forall i :: 0 <= i < |s| ==> !IsDecimalDigit(s[i])
  }

  lemma UnsignedNeedsADigit(u: string)
    requires NoDecimalDigit(u)
    ensures ParseUnsigned(u) == None
  {
    assert !HasHexPrefix(u);
    assert |u| > 0 ==> DigitValue(u[0]) >= 10;
  }

  lemma DropSignKeepsNoDigit(t: string)
    requires NoDecimalDigit(t)
    ensures NoDecimalDigit(DropSign(t))
  {
    if |t| > 0 && (t[0] == '-' || t[0] == '+') {
      assert forall i :: 0 <= i < |t| - 1 ==> t[1..][i] == t[i + 1];
    }
  }

  lemma TrimStartKeepsNoDigit(s: string)
    requires NoDecimalDigit(s)
    ensures NoDecimalDigit(TrimStart(s))
  {
    var t := TrimStart(s);
    assert forall i :: 0 <= i < |t| ==> t[i] == s[|s| - |t| + i];
  }

  /** The signed stage after trimming finds no number without a digit. */
  lemma TrimmedNeedsADigit(s: string)
    ensures NoDecimalDigit(s) ==> ParseSigned(TrimStart(s)).None?
  {
    if NoDecimalDigit(s) {
      TrimStartKeepsNoDigit(s);
      DropSignKeepsNoDigit(TrimStart(s));
    }
  }

  /** A string without any decimal digit never parses to a number: a hex
      prefix needs its `0`, and without it only decimal digits count. */
  lemma ParseIntNeedsADigit(s: string)
    requires NoDecimalDigit(s)
    ensures ParseInt(s) == None
  {
    TrimStartKeepsNoDigit(s);
    DropSignKeepsNoDigit(TrimStart(s));
    UnsignedNeedsADigit(DropSign(TrimStart(s)));
  }

  function DigitChar(d: nat): (c: char)
    requires d < 10
    ensures IsDecimalDigit(c) && DigitValue(c) == d
  {
    ('0' as int + d) as char
  }

  /** Decimal digits of a natural number, most significant first, without
      leading zeros. */
  function NatDigits(n: nat): (r: string)
    ensures |r| >= 1
    ensures forall i :: 0 <= i < |r| ==> IsDecimalDigit(r[i])
  {
    if n < 10 then [DigitChar(n)] else NatDigits(n / 10) + [DigitChar(n % 10)]
  }

  /** The text of an integer in a JavaScript template string
      (`${auctionId}`), for integers written without an exponent. */
  function DecimalString(n: int): (r: string)
    ensures |r| > 0 && (r[0] == '-' <==> n < 0) && (n >= 0 ==> IsDecimalDigit(r[0]))
  {
    if n < 0 then "-" + NatDigits(-n) else NatDigits(n)
  }

  lemma {:induction false} ValueOfNatDigits(n: nat)
    ensures ValueOf(NatDigits(n), 10) == n
  {
    if n >= 10 {
      var ds := NatDigits(n);
      assert ds[..|ds| - 1] == NatDigits(n / 10);
      ValueOfNatDigits(n / 10);
    }
  }

  lemma {:induction false} DigitRunOfDigits(ds: string, rest: string)
    requires forall i :: 0 <= i < |ds| ==> IsDecimalDigit(ds[i])
    requires |rest| == 0 || !IsDecimalDigit(rest[0])
    ensures DigitRun(ds + rest, 10) == ds
  {
    if |ds| > 0 {
      assert (ds + rest)[1..] == ds[1..] + rest;
      DigitRunOfDigits(ds[1..], rest);
      assert ds == [ds[0]] + ds[1..];
    } else {
      assert ds + rest == rest;
    }
  }

  lemma {:induction false} TrimStartSkipsSpaces(ws: string, body: string)
    requires forall i :: 0 <= i < |ws| ==> IsJsSpace(ws[i])
    requires |body| > 0 && !IsJsSpace(body[0])
    ensures TrimStart(ws + body) == body
  {
    if |ws| > 0 {
      assert (ws + body)[1..] == ws[1..] + body;
      TrimStartSkipsSpaces(ws[1..], body);
    } else {
      assert ws + body == body;
    }
  }

  lemma SignAndDigitsAreNotSpace(c: char)
    requires IsDecimalDigit(c) || c == '-'
    ensures !IsJsSpace(c)
  {
  }

  /** The digit run in any radix stops exactly where the digits of that radix stop. */
  lemma {:induction false} DigitRunInRadix(ds: string, rest: string, radix: nat)
    requires forall i :: 0 <= i < |ds| ==> DigitValue(ds[i]) < radix
    requires |rest| == 0 || DigitValue(rest[0]) >= radix
    ensures DigitRun(ds + rest, radix) == ds
  {
    if |ds| > 0 {
      assert (ds + rest)[1..] == ds[1..] + rest;
      DigitRunInRadix(ds[1..], rest, radix);
      assert ds == [ds[0]] + ds[1..];
    } else {
      assert ds + rest == rest;
    }
  }

  /** `0x` followed by hex digits reads as their value in base 16, whatever
      follows the last hex digit. */
  lemma ParseIntReadsHexDigits(ds: string, rest: string)
    requires |ds| > 0 && forall i :: 0 <= i < |ds| ==> DigitValue(ds[i]) < 16
    requires |rest| == 0 || DigitValue(rest[0]) >= 16
    ensures ParseInt("0x" + (ds + rest)) == Some(ValueOf(ds, 16))
  {
    var body := ds + rest;
    var u := "0x" + body;
    assert u[0] == '0' && u[1] == 'x' && u[2..] == body;
    UnsignedAfterPrefix(u, body);
    assert DigitRun(body, 16) == ds by {
      DigitRunInRadix(ds, rest, 16);
    }
    assert ParseUnsigned(u) == Some(ValueOf(ds, 16));
  }

  /** Text starting with `0` is neither trimmed nor signed: the unsigned
      stage decides, with the prefix the text carries. */
  lemma UnsignedAfterPrefix(u: string, body: string)
    requires |u| >= 2 && u[0] == '0' && u[1] == 'x' && u[2..] == body
    ensures ParseInt(u) == ParseUnsigned(u)
    ensures AfterPrefix(u) == body && RadixOf(u) == 16
  {
    assert !IsJsSpace(u[0]);
    assert TrimStart(u) == u;
    assert DropSign(u) == u;
  }

  /** The digits and what follows them, once sign and space are gone, parse
      as the number the digits write. */
  lemma ReadsUnsigned(m: nat, rest: string)
    requires |rest| == 0 || (!IsDecimalDigit(rest[0]) && rest[0] != 'x' && rest[0] != 'X')
    ensures ParseUnsigned(NatDigits(m) + rest) == Some(m)
  {
    var digits := NatDigits(m);
    var u := digits + rest;
    assert |u| >= 2 ==> u[1] == (if |digits| >= 2 then digits[1] else rest[0]);
    assert !HasHexPrefix(u);
    DigitRunOfDigits(digits, rest);
    ValueOfNatDigits(m);
  }

  /** A leading minus negates what follows. */
  lemma ReadsMinus(u: string, v: nat)
    requires ParseUnsigned(u) == Some(v)
    ensures ParseSigned(['-'] + u) == Some(-(v as int))
  {
    assert (['-'] + u)[1..] == u;
  }

  /** Without a sign the unsigned reading stands. */
  lemma ReadsNoSign(digits: string, rest: string, v: nat)
    requires |digits| > 0 && IsDecimalDigit(digits[0])
    requires ParseUnsigned(digits + rest) == Some(v)
    ensures ParseSigned(digits + rest) == Some(v)
  {
    assert (digits + rest)[0] == digits[0];
  }

  /** The decimal text of an integer, followed by text that does not
      continue it, reads back as that integer once white space is gone. */
  lemma ReadsSigned(n: int, rest: string)
    requires |rest| == 0 || (!IsDecimalDigit(rest[0]) && rest[0] != 'x' && rest[0] != 'X')
    ensures ParseSigned(DecimalString(n) + rest) == Some(n)
  {
    if n < 0 {
      ReadsUnsigned(-n, rest);
      assert ['-'] + NatDigits(-n) + rest == ['-'] + (NatDigits(-n) + rest);
      ReadsMinus(NatDigits(-n) + rest, -n);
    } else {
      ReadsUnsigned(n, rest);
      ReadsNoSign(NatDigits(n), rest, n);
    }
  }

  /** `parseInt` reads back the decimal text of any integer, whatever white
      space precedes it and whatever follows it, as long as what follows
      does not continue the number (a digit) or turn a lone `0` into a hex
      prefix (an `x`). */
  lemma ParseIntReadsDecimal(ws: string, n: int, rest: string)
    requires forall i :: 0 <= i < |ws| ==> IsJsSpace(ws[i])
    requires |rest| == 0 || (!IsDecimalDigit(rest[0]) && rest[0] != 'x' && rest[0] != 'X')
    ensures ParseInt(ws + DecimalString(n) + rest) == Some(n)
  {
    var body := DecimalString(n) + rest;
    assert ws + DecimalString(n) + rest == ws + body;
    assert body[0] == DecimalString(n)[0];
    SignAndDigitsAreNotSpace(body[0]);
    TrimStartSkipsSpaces(ws, body);
    ReadsSigned(n, rest);
  }

  /** The round trip with nothing around the number. */
  lemma ParseIntDecimal(n: int)
    ensures ParseInt(DecimalString(n)) == Some(n)
  {
    var e: string, d := [], DecimalString(n);
    assert e + d + e == d;
    ParseIntReadsDecimal(e, n, e);
  }

  lemma ParseIntOne()
    ensures ParseInt("1") == Some(1)
  {
    assert DecimalString(1) == "1" by {
      assert NatDigits(1) == "1";
    }
    ParseIntDecimal(1);
  }

  /** Trailing text after the number is ignored. */
  lemma ParseIntIgnoresTrailingText()
    ensures ParseInt("12abc") == Some(12)
  {
    var e: string := [];
    var abc := "abc";
    assert e + DecimalString(12) + abc == "12abc" by {
      assert NatDigits(1) == "1";
      assert NatDigits(12) == NatDigits(1) + "2";
    }
    ParseIntReadsDecimal(e, 12, abc);
  }

  /** Leading white space and a sign are taken before the digits. */
  lemma ParseIntSkipsSpaceAndSign()
    ensures ParseInt(" -7px") == Some(-7)
  {
    var sp := " ";
    var px := "px";
    assert sp + DecimalString(-7) + px == " -7px" by {
      assert NatDigits(7) == "7";
    }
    ParseIntReadsDecimal(sp, -7, px);
  }

  /** A `0x` prefix switches to hexadecimal. */
  lemma ParseIntReadsHex()
    ensures ParseInt("0x1F") == Some(31)
  {
    assert TrimStart("0x1F") == "0x1F";
    assert DropSign("0x1F") == "0x1F";
    HexDigitsRead();
  }

  /** The unsigned stage of the hex example: `1F` after the prefix. */
  lemma HexDigitsRead()
    ensures ParseUnsigned("0x1F") == Some(31)
  {
    assert AfterPrefix("0x1F") == "1F";
    assert DigitRun("1F"[1..], 16) == "F";
    assert DigitRun("1F", 16) == "1F";
    assert "1F"[..1] == "1";
    assert "1"[..0] == "";
    assert ValueOf("1F", 16) == 31;
  }

}

=== FILE: service.dfy ===
/** The Express route handlers of the API server: each handler checks the
    request's required fields with JavaScript truthiness, forwards the call
    to the store, and sends back the store's reply unchanged, or a 500 when
    the call to the store fails. The bridge that runs the store in a child
    process is a parameter: a call either returns the store's reply or fails
    with an error text. */
module Service {
  import opened Common
  import opened JsInt
  import Store

  /** A JSON value as read from a request body; an absent field is
      `Undefined`. Numbers are integers in this model. */
  datatype JsValue = Undefined | Null | Bool(b: bool) | Num(n: int) | Str(s: string) | Object

  /** JavaScript's ToBoolean: `undefined`, `null`, `false`, `0` and `""`
      are falsy, everything else is truthy. */
  predicate Truthy(v: JsValue) {
    match v
    case Undefined => false
    case Null => false
    case Bool(b) => b
    case Num(n) => n != 0
    case Str(s) => |s| > 0
    case Object => true
  }

  const FieldsRequired := "All fields are required"
  const CredentialsRequired := "Email and password are required"
  const BidFieldsRequired := "User ID and amount are required"
  const ServerErrorPrefix := "Server error: "

  /** The store operation a handler asks the bridge to run, with the
      arguments it passes. `None` is the `NaN` that `parseInt` gives for a
      non-numeric path segment, serialised as `null`. */
  datatype StoreCall =
    | RegisterCall(name: JsValue, email: JsValue, password: JsValue)
    | LoginCall(email: JsValue, password: JsValue)
    | ListAuctionsCall
    | PlaceBidCall(auctionId: Option<int>, userId: JsValue, amount: JsValue)
    | ListBidsCall(auctionId: Option<int>)

  /** An HTTP status and a JSON body. */
  datatype Response = Response(status: int, body: Store.Reply)

  /** What a handler does before any store work: answer at once, or call
      the store. */
  datatype Decision = Reject(response: Response) | Forward(call: StoreCall)

  /** What came back from the bridge. */
  datatype CallOutcome = Returned(reply: Store.Reply) | Failed(error: string)

  function BadRequest(message: string): Response {
    Response(400, Store.Failure(message))
  }

  /** `POST /api/register` */
  function RegisterRoute(name: JsValue, email: JsValue, password: JsValue): (d: Decision)
    ensures d.Reject? <==> !Truthy(name) || !Truthy(email) || !Truthy(password)
    ensures d.Reject? ==> d.response == BadRequest(FieldsRequired)
    ensures d.Forward? ==> d.call == RegisterCall(name, email, password)
  {
    if !Truthy(name) || !Truthy(email) || !Truthy(password) then Reject(BadRequest(FieldsRequired))
    else Forward(RegisterCall(name, email, password))
  }

  /** `POST /api/login` */
  function LoginRoute(email: JsValue, password: JsValue): (d: Decision)
    ensures d.Reject? <==> !Truthy(email) || !Truthy(password)
    ensures d.Reject? ==> d.response == BadRequest(CredentialsRequired)
    ensures d.Forward? ==> d.call == LoginCall(email, password)
  {
    if !Truthy(email) || !Truthy(password) then Reject(BadRequest(CredentialsRequired))
    else Forward(LoginCall(email, password))
  }

  /** `GET /api/auctions`: nothing to check. */
  function AuctionsRoute(): (d: Decision)
    ensures d.Forward? && d.call.ListAuctionsCall?
  {
    Forward(ListAuctionsCall)
  }

  /** `POST /api/auctions/:id/bid`: the id is parsed before the body is
      checked, and an unparsable id is not a client error. */
  function BidRoute(idParam: string, userId: JsValue, amount: JsValue): (d: Decision)
    ensures d.Reject? <==> !Truthy(userId) || !Truthy(amount)
    ensures d.Reject? ==> d.response == BadRequest(BidFieldsRequired)
    ensures d.Forward? ==> d.call == PlaceBidCall(ParseInt(idParam), userId, amount)
  {
    var auctionId := ParseInt(idParam);
    if !Truthy(userId) || !Truthy(amount) then Reject(BadRequest(BidFieldsRequired))
    else Forward(PlaceBidCall(auctionId, userId, amount))
  }

  /** `GET /api/auctions/:id/bids`: nothing to check. */
  function BidsRoute(idParam: string): (d: Decision)
    ensures d.Forward? && d.call.ListBidsCall? && d.call.auctionId == ParseInt(idParam)
    ensures NoDecimalDigit(idParam) ==> d.call.auctionId.None?
  {
    Forward(ListBidsCall(ParseInt(idParam)))
  }

  /** The response a handler sends once it knows the decision and, for a
      forwarded call, what the bridge gave back. */
  function Respond(d: Decision, outcome: CallOutcome): (r: Response)
    ensures d.Reject? ==> r == d.response
    ensures d.Forward? && outcome.Returned? ==> r == Response(200, outcome.reply)
    ensures d.Forward? && outcome.Failed? ==>
      r.status == 500 && r.body.Failure? &&
      ServerErrorPrefix <= r.body.error && r.body.error[|ServerErrorPrefix|..] == outcome.error
  {
    match d
    case Reject(response) => response
    case Forward(_) =>
      match outcome
      case Returned(reply) => Response(200, reply)
      case Failed(error) => Response(500, Store.Failure(ServerErrorPrefix + error))
  }

  // ---------------------------------------------------------------------
  // End to end: handler composed with the store
  // ---------------------------------------------------------------------

  /** A response together with the store contents after the request. */
  datatype Exchange = Exchange(response: Response, db: Store.Db)

  function ServerError(error: string): Response {
    Response(500, Store.Failure(ServerErrorPrefix + error))
  }

  /** Registration with string fields; `fault` is a failure of the bridge,
      which then never reaches the store. */
  function ServeRegister(db: Store.Db, name: string, email: string, password: string, fault: Option<string>): (r: Exchange)
    ensures |name| == 0 || |email| == 0 || |password| == 0 ==>
      r == Exchange(BadRequest(FieldsRequired), db)
    ensures |name| > 0 && |email| > 0 && |password| > 0 && fault.Some? ==>
      r == Exchange(ServerError(fault.value), db)
    ensures |name| > 0 && |email| > 0 && |password| > 0 && fault.None? ==>
      var step := Store.RegisterUser(db, email, password, name);
      r == Exchange(Response(200, step.reply), step.db)
  {
    var d := RegisterRoute(Str(name), Str(email), Str(password));
    if d.Reject? then Exchange(d.response, db)
    else if fault.Some? then Exchange(Respond(d, Failed(fault.value)), db)
    else
      // the handler passes (name, email, password); the bridge calls
      // register_user(email, password, name)
      var step := Store.RegisterUser(db, email, password, name);
      Exchange(Respond(d, Returned(step.reply)), step.db)
  }

  /** Login with string fields; the store is only read. */
  function ServeLogin(db: Store.Db, email: string, password: string, fault: Option<string>): (r: Response)
    ensures |email| == 0 || |password| == 0 ==> r == BadRequest(CredentialsRequired)
    ensures |email| > 0 && |password| > 0 && fault.Some? ==> r == ServerError(fault.value)
    ensures |email| > 0 && |password| > 0 && fault.None? ==>
      r.status == 200 &&
      (r.body.LoggedIn? <==> exists u :: u in db.users && u.email == email && u.password == password) &&
      (!r.body.LoggedIn? ==> r.body == Store.Failure(Store.BadCredentials))
    ensures |email| > 0 && |password| > 0 && fault.None? ==> r == Response(200, Store.LoginUser(db, email, password))
  {
    var d := LoginRoute(Str(email), Str(password));
    if d.Reject? then d.response
    else if fault.Some? then Respond(d, Failed(fault.value))
    else Respond(d, Returned(Store.LoginUser(db, email, password)))
  }

  /** The auction listing: never a client error. */
  function ServeAuctions(db: Store.Db, fault: Option<string>): (r: Response)
    ensures fault.Some? ==> r == ServerError(fault.value)
    ensures fault.None? ==>
      && r.status == 200 && r.body.Auctions?
      && (forall row :: row in r.body.auctionRows ==> row.auction in db.auctions && row.auction.status == Store.Active)
    ensures fault.None? ==> r == Response(200, Store.Auctions(Store.GetAuctions(db)))
  {
    var d := AuctionsRoute();
    if fault.Some? then Respond(d, Failed(fault.value))
    else Respond(d, Returned(Store.Auctions(Store.GetAuctions(db))))
  }

  /** A bid with numeric `user_id` and `amount`: zero in either is a client
      error; otherwise the store's answer comes back with status 200, a
      business rejection included. */
  function ServeBid(db: Store.Db, idParam: string, userId: int, amount: int, fault: Option<string>): (r: Exchange)
    ensures userId == 0 || amount == 0 ==> r == Exchange(BadRequest(BidFieldsRequired), db)
    ensures userId != 0 && amount != 0 && fault.Some? ==> r == Exchange(ServerError(fault.value), db)
    ensures userId != 0 && amount != 0 && fault.None? ==>
      var step := Store.PlaceBid(db, ParseInt(idParam), userId, amount);
      r == Exchange(Response(200, step.reply), step.db)
  {
    var d := BidRoute(idParam, Num(userId), Num(amount));
    if d.Reject? then Exchange(d.response, db)
    else if fault.Some? then Exchange(Respond(d, Failed(fault.value)), db)
    else
      assert d.call.auctionId == ParseInt(idParam);
      var step := Store.PlaceBid(db, d.call.auctionId, userId, amount);
      Exchange(Respond(d, Returned(step.reply)), step.db)
  }

  /** The bid history of one auction: never a client error; an id that does
      not parse lists nothing. */
  function ServeBids(db: Store.Db, idParam: string, fault: Option<string>): (r: Response)
    ensures fault.Some? ==> r == ServerError(fault.value)
    ensures fault.None? ==> r == Response(200, Store.Bids(Store.GetBids(db, ParseInt(idParam))))
    ensures fault.None? && ParseInt(idParam).None? ==> r == Response(200, Store.Bids([]))
  {
    var d := BidsRoute(idParam);
    if fault.Some? then Respond(d, Failed(fault.value))
    else Respond(d, Returned(Store.Bids(Store.GetBids(db, d.call.auctionId))))
  }
}

=== FILE: spec_label.dfy ===
/** The label text of a specification key on the car detail view
    (`formatSpecLabel` in auction.js): a space goes in front of every ASCII
    capital letter (`/([A-Z])/g` replaced by `" $1"`), then the first
    character is upper-cased (`/^./`, which does not match a line
    terminator). */
module SpecLabel {

  predicate IsUpper(c: char) {
    'A' <= c <= 'Z'
  }

  predicate IsLower(c: char) {
    'a' <= c <= 'z'
  }

  /** The characters `.` does not match in a JavaScript regular expression. */
  predicate IsLineTerminator(c: char) {
    c == '\n' || c == '\r' || c == '\U{2028}' || c == '\U{2029}'
  }

  /** `toUpperCase` on the ASCII letters; every other character is kept. */
  function ToUpper(c: char): (u: char)
    ensures IsLower(c) ==> IsUpper(u) && u as int == c as int - 32
    ensures !IsLower(c) ==> u == c
  {
    if IsLower(c) then (c as int - 32) as char else c
  }

  function ToLower(c: char): (l: char)
    ensures IsUpper(c) ==> IsLower(l) && l as int == c as int + 32
    ensures !IsUpper(c) ==> l == c
  {
    if IsUpper(c) then (c as int + 32) as char else c
  }

  function CountUpper(s: string): (n: nat)
    ensures n <= |s|
  {
    if |s| == 0 then 0 else (if IsUpper(s[0]) then 1 else 0) + CountUpper(s[1..])
  }

  /** The first replacement: `" $1"` for every capital letter. */
  function SpaceBeforeUpper(key: string): (r: string)
    ensures |r| == |key| + CountUpper(key)
    ensures |r| > 0 ==> !IsUpper(r[0])
    ensures forall i :: 0 < i < |r| && IsUpper(r[i]) ==> r[i - 1] == ' '
  {
    if |key| == 0 then []
    else
      var rest := SpaceBeforeUpper(key[1..]);
      if IsUpper(key[0]) then
        var r := [' ', key[0]] + rest;
        assert forall i :: 2 <= i < |r| ==> r[i] == rest[i - 2];
        r
      else
        var r := [key[0]] + rest;
        assert forall i :: 1 <= i < |r| ==> r[i] == rest[i - 1];
        r
  }

  /** The second replacement: the first character, unless it is a line
      terminator, in upper case. */
  function UpperFirst(s: string): (r: string)
    ensures |r| == |s|
    ensures |s| > 0 ==> r[0] == (if IsLineTerminator(s[0]) then s[0] else ToUpper(s[0])) && r[1..] == s[1..]
  {
    if |s| == 0 || IsLineTerminator(s[0]) then s else [ToUpper(s[0])] + s[1..]
  }

  function FormatSpecLabel(key: string): (r: string)
    ensures |r| == |key| + CountUpper(key)
    ensures |key| > 0 && IsUpper(key[0]) ==> r[0] == ' ' && r[1] == key[0]
    ensures |key| > 0 && IsLower(key[0]) ==> r[0] == ToUpper(key[0])
    ensures forall i :: 0 < i < |r| && IsUpper(r[i]) ==> r[i - 1] == ' '
  {
    UpperFirst(SpaceBeforeUpper(key))
  }

  /** Drops every space that stands right before a capital letter. */
  function Unspace(s: string): string
  {
    if |s| == 0 then []
    else if |s| >= 2 && s[0] == ' ' && IsUpper(s[1]) then [s[1]] + Unspace(s[2..])
    else [s[0]] + Unspace(s[1..])
  }

  /** Reads the key back from a label. */
  function KeyOf(text: string): string {
    Unspace(if |text| > 0 then [ToLower(text[0])] + text[1..] else text)
  }

  lemma {:induction false} UnspaceSpaceBeforeUpper(key: string)
    ensures Unspace(SpaceBeforeUpper(key)) == key
  {
    if |key| > 0 {
      var rest := SpaceBeforeUpper(key[1..]);
      UnspaceSpaceBeforeUpper(key[1..]);
      if IsUpper(key[0]) {
        var r := [' ', key[0]] + rest;
        assert r[2..] == rest;
      } else {
        var r := [key[0]] + rest;
        assert r[1..] == rest;
        assert |r| >= 2 ==> r[1] == rest[0];
      }
    }
  }

  /** No two keys share a label: the key can always be read back. */
  lemma FormatSpecLabelRoundTrip(key: string)
    ensures KeyOf(FormatSpecLabel(key)) == key
  {
    var spaced := SpaceBeforeUpper(key);
    UnspaceSpaceBeforeUpper(key);
    if |spaced| > 0 {
      var text := FormatSpecLabel(key);
      assert !IsUpper(spaced[0]);
      assert ToLower(text[0]) == spaced[0];
      assert [ToLower(text[0])] + text[1..] == spaced;
    }
  }

  lemma FormatSpecLabelInjective(k1: string, k2: string)
    requires FormatSpecLabel(k1) == FormatSpecLabel(k2)
    ensures k1 == k2
  {
    FormatSpecLabelRoundTrip(k1);
    FormatSpecLabelRoundTrip(k2);
  }

  /** Text without capitals is left as it is. */
  lemma {:induction false} NoCapitals(s: string)
    requires NoUpper(s)
    ensures SpaceBeforeUpper(s) == s
  {
    if |s| > 0 {
      NoCapitals(s[1..]);
    }
  }

  /** The first replacement works piece by piece. */
  lemma {:induction false} SpaceBeforeUpperAppend(a: string, b: string)
    ensures SpaceBeforeUpper(a + b) == SpaceBeforeUpper(a) + SpaceBeforeUpper(b)
  {
    if |a| > 0 {
      assert (a + b)[1..] == a[1..] + b;
      SpaceBeforeUpperAppend(a[1..], b);
    } else {
      assert a + b == b;
    }
  }

  predicate NoUpper(s: string) {
    forall i :: 0 <= i < |s| ==> !IsUpper(s[i])
  }

  /** A capitalised word gets one space in front. */
  lemma CapitalisedWord(w: string)
    requires |w| > 0 && IsUpper(w[0]) && NoUpper(w[1..])
    ensures SpaceBeforeUpper(w) == " " + w
  {
    NoCapitals(w[1..]);
    assert w == [w[0]] + w[1..];
  }

  /** The second replacement only looks at the first character. */
  lemma UpperFirstAppend(a: string, b: string)
    requires |a| > 0
    ensures UpperFirst(a + b) == UpperFirst(a) + b
  {
    assert (a + b)[0] == a[0];
    assert (a + b)[1..] == a[1..] + b;
  }

  /** Two camel-case words, the second capitalised, become two words with
      the first capitalised. */
  lemma CamelCaseWords(first: string, second: string)
    requires |first| > 0 && NoUpper(first)
    requires |second| > 0 && IsUpper(second[0]) && NoUpper(second[1..])
    ensures FormatSpecLabel(first + second) == UpperFirst(first) + (" " + second)
  {
    assert SpaceBeforeUpper(first + second) == first + (" " + second) by {
      SpaceBeforeUpperAppend(first, second);
      NoCapitals(first);
      CapitalisedWord(second);
    }
    UpperFirstAppend(first, " " + second);
  }

  /** A camel-case key becomes words. */
  lemma TopSpeedLabel()
    ensures FormatSpecLabel("topSpeed") == "Top Speed"
  {
    var first, second := "top", "Speed";
    assert first + second == "topSpeed";
    CamelCaseWords(first, second);
    assert UpperFirst(first) + (" " + second) == "Top Speed";
  }

  /** A key that already starts with a capital keeps a leading space. */
  lemma LeadingCapitalLabel()
    ensures FormatSpecLabel("Engine") == " Engine"
  {
    CapitalisedWord("Engine");
  }
}

=== FILE: store.dfy ===
/** The server-side auction store (`CarAuctionDB`): three tables held as
    sequences of records, and the operations the HTTP layer calls on them.
    Every operation is a pure function; a mutating one returns the reply it
    would send together with the new table contents. */
module Store {
  import opened Common

  /** The status value `place_bid` and `get_auctions` select on. */
  const Active := "active"

  const NotFoundOrEnded := "Auction not found or ended"
  const AlreadyBid := "You have already placed a bid"
  const NotHigher := "Bid must be higher than current bid"
  const EmailTaken := "Email already exists"
  const BadCredentials := "Invalid credentials"

  /** A row of `users`; the creation timestamp is left out. */
  datatype User = User(id: int, email: string, password: string, name: string)

  /** A row of `auctions`. `endTime` is kept as the stored text: no operation
      of the store ever compares it with the clock. The image URL column,
      which no operation reads or changes, is left out. */
  datatype Auction = Auction(
    id: int,
    carName: string,
    description: string,
    startingBid: int,
    currentBid: int,
    endTime: string,
    status: string)

  /** A row of `bids`; the creation timestamp is left out. */
  datatype Bid = Bid(id: int, auctionId: int, userId: int, amount: int)

  /** The three tables, plus the last id handed out by each table's
      AUTOINCREMENT sequence. */
  datatype Db = Db(
    users: seq<User>,
    auctions: seq<Auction>,
    bids: seq<Bid>,
    lastUserId: int,
    lastAuctionId: int,
    lastBidId: int)

  /** One row of the `get_auctions` query: the auction's columns plus
      `bidder_count`. */
  datatype AuctionRow = AuctionRow(auction: Auction, bidderCount: nat)

  /** One row of the `get_bids` query: the bid's columns plus the bidder's
      name taken from `users`. */
  datatype BidRow = BidRow(bid: Bid, userName: string)

  /** The JSON document a store operation prints for the HTTP layer. */
  datatype Reply =
    | Registered(userId: int)        // {"success": true, "user_id": n}
    | LoggedIn(user: User)           // {"success": true, "user": {...}}
    | Auctions(auctionRows: seq<AuctionRow>)
    | BidPlaced                      // {"success": true}
    | Bids(bidRows: seq<BidRow>)
    | Failure(error: string)         // {"success": false, "error": "..."}

  /** Result of a mutating operation: the reply and the tables afterwards. */
  datatype Step = Step(reply: Reply, db: Db)

  // ---------------------------------------------------------------------
  // Queries over the tables
  // ---------------------------------------------------------------------

  /** `a` is the row selected by `WHERE id = ? AND status = "active"`; a
      `None` id (JSON `null`) matches no row. */
  predicate Live(a: Auction, id: Option<int>) {
    id == Some(a.id) && a.status == Active
  }

  predicate IsActive(a: Auction) {
    a.status == Active
  }

  /** Some bid on `auctionId` was placed by `userId`. */
  predicate HasBid(bids: seq<Bid>, auctionId: int, userId: int) {
    exists b :: b in bids && b.auctionId == auctionId && b.userId == userId
  }

  predicate EmailInUse(users: seq<User>, email: string) {
    exists u :: u in users && u.email == email
  }

  /** The distinct user ids among the bids on `auctionId`
      (`COUNT(DISTINCT b.user_id)` counts this set). */
  function Bidders(bids: seq<Bid>, auctionId: int): set<int> {
    set b | b in bids && b.auctionId == auctionId :: b.userId
  }

  /** The first live row with the given id, as `fetchone` returns it. */
  function FindLive(auctions: seq<Auction>, id: Option<int>): (r: Option<Auction>)
    ensures r.Some? ==> r.value in auctions && Live(r.value, id)
    ensures r.None? ==> forall a :: a in auctions ==> !Live(a, id)
  {
    if |auctions| == 0 then None
    else if Live(auctions[0], id) then Some(auctions[0])
    else FindLive(auctions[1..], id)
  }

  /** `UPDATE auctions SET current_bid = ? WHERE id = ?` */
  function WithCurrentBid(auctions: seq<Auction>, id: int, amount: int): (r: seq<Auction>)
    ensures |r| == |auctions|
    ensures forall i :: 0 <= i < |r| ==>
      r[i] == if auctions[i].id == id then auctions[i].(currentBid := amount) else auctions[i]
  {
    seq(|auctions|, i requires 0 <= i < |auctions| =>
      if auctions[i].id == id then auctions[i].(currentBid := amount) else auctions[i])
  }

  // ---------------------------------------------------------------------
  // Operations
  // ---------------------------------------------------------------------

  /** `register_user`: the UNIQUE constraint on `email` turns a second
      registration of an address into an integrity error. */
  function RegisterUser(db: Db, email: string, password: string, name: string): (r: Step)
    ensures EmailInUse(db.users, email) ==> r == Step(Failure(EmailTaken), db)
    ensures !EmailInUse(db.users, email) ==>
      && r.reply.Registered?
      && r.db.users == db.users + [User(r.reply.userId, email, password, name)]
      && r.reply.userId > db.lastUserId
      && r.db == db.(users := r.db.users, lastUserId := r.reply.userId)
  {
    if EmailInUse(db.users, email) then Step(Failure(EmailTaken), db)
    else
      var id := db.lastUserId + 1;
      Step(Registered(id), db.(users := db.users + [User(id, email, password, name)], lastUserId := id))
  }

  /** `login_user`: the first user row whose email and password both match
      exactly. */
  function LoginUser(db: Db, email: string, password: string): (r: Reply)
    ensures r.LoggedIn? <==> exists u :: u in db.users && u.email == email && u.password == password
    ensures r.LoggedIn? ==> r.user in db.users && r.user.email == email && r.user.password == password
    ensures !r.LoggedIn? ==> r == Failure(BadCredentials)
  {
    FirstMatch(db.users, email, password)
  }

  function FirstMatch(users: seq<User>, email: string, password: string): (r: Reply)
    ensures r.LoggedIn? <==> exists u :: u in users && u.email == email && u.password == password
    ensures r.LoggedIn? ==> r.user in users && r.user.email == email && r.user.password == password
    ensures !r.LoggedIn? ==> r == Failure(BadCredentials)
  {
    if |users| == 0 then Failure(BadCredentials)
    else if users[0].email == email && users[0].password == password then LoggedIn(users[0])
    else
      var r := FirstMatch(users[1..], email, password);
      assert forall u :: u in users[1..] ==> u in users;
      assert forall u :: u in users && u != users[0] ==> u in users[1..];
      r
  }

  /** `get_auctions`: every active auction, LEFT JOINed with its bids and
      grouped, so an auction without bids is still listed with count 0. The
      query has no ORDER BY, so nothing is promised about the order. */
  function GetAuctions(db: Db): (rows: seq<AuctionRow>)
    ensures |rows| == Count(db.auctions, IsActive)
    ensures forall row :: row in rows ==>
      && row.auction in db.auctions
      && row.auction.status == Active
      && row.bidderCount == |Bidders(db.bids, row.auction.id)|
    ensures forall a :: a in db.auctions && a.status == Active ==>
      AuctionRow(a, |Bidders(db.bids, a.id)|) in rows
  {
    var live := Filter(db.auctions, IsActive);
    var rows := seq(|live|, i requires 0 <= i < |live| => AuctionRow(live[i], |Bidders(db.bids, live[i].id)|));
    assert forall a :: a in live ==> AuctionRow(a, |Bidders(db.bids, a.id)|) in rows by {
      forall a | a in live
        ensures AuctionRow(a, |Bidders(db.bids, a.id)|) in rows
      {
        var i :| 0 <= i < |live| && live[i] == a;
        assert rows[i] == AuctionRow(a, |Bidders(db.bids, a.id)|);
      }
    }
    assert forall row :: row in rows ==> row.auction in live by {
      forall row | row in rows
        ensures row.auction in live
      {
        var i :| 0 <= i < |rows| && rows[i] == row;
        assert row.auction == live[i];
      }
    }
    rows
  }

  /** `place_bid`, with its three checks in source order: the auction must
      exist with status 'active' (its end time is never looked at), the user
      must not have bid on it before, and the amount must exceed the current
      bid (no minimum increment). Only then is the bid appended and the
      auction's `current_bid` set to the amount. */
  function PlaceBid(db: Db, auctionId: Option<int>, userId: int, amount: int): (r: Step)
    // check 1: a missing or non-active auction
    ensures (forall a :: a in db.auctions ==> !Live(a, auctionId)) ==>
      r == Step(Failure(NotFoundOrEnded), db)
    // check 2 runs before check 3: a repeat bidder is refused whatever the amount
    ensures (exists a :: a in db.auctions && Live(a, auctionId)) &&
            HasBid(db.bids, auctionId.value, userId) ==>
      r == Step(Failure(AlreadyBid), db)
    // check 3: not above the current bid
    ensures (exists a :: a in db.auctions && Live(a, auctionId)) &&
            !HasBid(db.bids, auctionId.value, userId) &&
            (forall a :: a in db.auctions && Live(a, auctionId) ==> amount <= a.currentBid) ==>
      r == Step(Failure(NotHigher), db)
    ensures (exists a :: a in db.auctions && Live(a, auctionId)) &&
            !HasBid(db.bids, auctionId.value, userId) &&
            (forall a :: a in db.auctions && Live(a, auctionId) ==> a.currentBid < amount) ==>
      r.reply == BidPlaced
    // a success passed all three checks and changed exactly two things
    ensures r.reply == BidPlaced ==>
      && auctionId.Some?
      && !HasBid(db.bids, auctionId.value, userId)
      && (exists a :: a in db.auctions && Live(a, auctionId) && a.currentBid < amount)
      && r.db == db.(bids := db.bids + [Bid(db.lastBidId + 1, auctionId.value, userId, amount)],
                     lastBidId := db.lastBidId + 1,
                     auctions := WithCurrentBid(db.auctions, auctionId.value, amount))
    ensures r.reply != BidPlaced ==> r.db == db
    ensures r.reply in {BidPlaced, Failure(NotFoundOrEnded), Failure(AlreadyBid), Failure(NotHigher)}
  {
    match FindLive(db.auctions, auctionId)
    case None => Step(Failure(NotFoundOrEnded), db)
    case Some(a) =>
      if HasBid(db.bids, a.id, userId) then Step(Failure(AlreadyBid), db)
      else if amount <= a.currentBid then Step(Failure(NotHigher), db)
      else
        var bid := Bid(db.lastBidId + 1, a.id, userId, amount);
        Step(BidPlaced, db.(bids := db.bids + [bid],
                            lastBidId := bid.id,
                            auctions := WithCurrentBid(db.auctions, a.id, amount)))
  }

  /** Bid amounts never increase along the sequence. */
  predicate NonIncreasing(rows: seq<BidRow>) {
    forall i, j :: 0 <= i < j < |rows| ==> rows[i].bid.amount >= rows[j].bid.amount
  }

  /** A row no smaller than every row of a sorted list can go in front. */
  lemma PrependKeepsOrder(x: BidRow, rest: seq<BidRow>)
    requires NonIncreasing(rest)
    requires forall y :: y in rest ==> x.bid.amount >= y.bid.amount
    ensures NonIncreasing([x] + rest)
  {
    var r := [x] + rest;
    forall i, j | 0 <= i < j < |r|
      ensures r[i].bid.amount >= r[j].bid.amount
    {
      assert r[j] == rest[j - 1];
      if i > 0 {
        assert r[i] == rest[i - 1];
      }
    }
  }

  /** The head of a sorted list is no smaller than anything inserted behind
      it. */
  lemma HeadDominates(row: BidRow, sorted: seq<BidRow>, rest: seq<BidRow>)
    requires NonIncreasing(sorted) && |sorted| > 0
    requires row.bid.amount < sorted[0].bid.amount
    requires multiset(rest) == multiset(sorted[1..]) + multiset{row}
    ensures forall x :: x in rest ==> sorted[0].bid.amount >= x.bid.amount
  {
    forall x | x in rest
      ensures sorted[0].bid.amount >= x.bid.amount
    {
      assert x in multiset(rest);
      if x != row {
        assert x in multiset(sorted[1..]);
        var k :| 0 <= k < |sorted[1..]| && sorted[1..][k] == x;
        assert sorted[k + 1] == x;
      }
    }
  }

  function Insert(row: BidRow, sorted: seq<BidRow>): (r: seq<BidRow>)
    requires NonIncreasing(sorted)
    ensures NonIncreasing(r)
    ensures multiset(r) == multiset(sorted) + multiset{row}
  {
    if |sorted| == 0 then [row]
    else if row.bid.amount >= sorted[0].bid.amount then [row] + sorted
    else
      var rest := Insert(row, sorted[1..]);
      HeadDominates(row, sorted, rest);
      PrependKeepsOrder(sorted[0], rest);
      assert sorted == [sorted[0]] + sorted[1..];
      [sorted[0]] + rest
  }

  /** `ORDER BY b.amount DESC`; rows with equal amounts may come in any order. */
  function SortByAmountDesc(rows: seq<BidRow>): (r: seq<BidRow>)
    ensures NonIncreasing(r)
    ensures multiset(r) == multiset(rows)
  {
    if |rows| == 0 then []
    else
      assert rows == [rows[0]] + rows[1..];
      Insert(rows[0], SortByAmountDesc(rows[1..]))
  }

  /** The join condition `b.user_id = u.id` for one bid. */
  function OwnedBy(userId: int): User -> bool {
    (u: User) => u.id == userId
  }

  /** One result row per user, in order, naming that user. */
  function NameRows(b: Bid, owners: seq<User>): (r: seq<BidRow>)
    ensures |r| == |owners|
    ensures forall row :: row in r ==> row.bid == b && exists u :: u in owners && u.name == row.userName
    ensures forall u :: u in owners ==> BidRow(b, u.name) in r
  {
    var r := seq(|owners|, i requires 0 <= i < |owners| => BidRow(b, owners[i].name));
    assert forall u :: u in owners ==> BidRow(b, u.name) in r by {
      forall u | u in owners
        ensures BidRow(b, u.name) in r
      {
        var i :| 0 <= i < |owners| && owners[i] == u;
        assert r[i] == BidRow(b, u.name);
      }
    }
    assert forall row :: row in r ==> exists u :: u in owners && u.name == row.userName by {
      forall row | row in r
        ensures exists u :: u in owners && u.name == row.userName
      {
        var i :| 0 <= i < |r| && r[i] == row;
        assert owners[i] in owners;
      }
    }
    r
  }

  /** The inner join of one bid with `users`, restricted to one auction. */
  function JoinOne(b: Bid, users: seq<User>, auctionId: Option<int>): (r: seq<BidRow>)
    ensures |r| == if auctionId == Some(b.auctionId) then Count(users, OwnedBy(b.userId)) else 0
    ensures forall row :: row in r ==>
      row.bid == b && auctionId == Some(b.auctionId) &&
      exists u :: u in users && u.id == b.userId && u.name == row.userName
    ensures forall u :: u in users && u.id == b.userId && auctionId == Some(b.auctionId) ==>
      BidRow(b, u.name) in r
  {
    if auctionId != Some(b.auctionId) then []
    else NameRows(b, Filter(users, OwnedBy(b.userId)))
  }

  /** The number of (bid, user) pairs that meet the join condition on the
      auction. */
  function MatchCount(bids: seq<Bid>, users: seq<User>, auctionId: Option<int>): nat {
    if |bids| == 0 then 0
    else
      (if auctionId == Some(bids[0].auctionId) then Count(users, OwnedBy(bids[0].userId)) else 0)
      + MatchCount(bids[1..], users, auctionId)
  }

  function Join(bids: seq<Bid>, users: seq<User>, auctionId: Option<int>): (r: seq<BidRow>)
    ensures |r| == MatchCount(bids, users, auctionId)
    ensures forall row :: row in r ==>
      row.bid in bids && auctionId == Some(row.bid.auctionId) &&
      exists u :: u in users && u.id == row.bid.userId && u.name == row.userName
    ensures forall b, u :: b in bids && u in users && u.id == b.userId && auctionId == Some(b.auctionId) ==>
      BidRow(b, u.name) in r
  {
    if |bids| == 0 then []
    else
      var first := JoinOne(bids[0], users, auctionId);
      var rest := Join(bids[1..], users, auctionId);
      var r := first + rest;
      assert forall row :: row in rest ==> row.bid in bids[1..];
      assert forall b :: b in bids ==> b == bids[0] || b in bids[1..];
      r
  }

  /** `WHERE b.auction_id = NULL` holds for no row. */
  lemma {:induction false} JoinOfNoAuction(bids: seq<Bid>, users: seq<User>)
    ensures Join(bids, users, None) == []
  {
    if |bids| > 0 {
      JoinOfNoAuction(bids[1..], users);
    }
  }

  /** `get_bids`: the bids on one auction whose bidder is a known user (an
      inner join), highest amount first. A `None` id matches nothing. */
  function GetBids(db: Db, auctionId: Option<int>): (r: seq<BidRow>)
    ensures NonIncreasing(r)
    ensures multiset(r) == multiset(Join(db.bids, db.users, auctionId))
    ensures |r| == MatchCount(db.bids, db.users, auctionId)
    ensures forall row :: row in r ==>
      row.bid in db.bids && auctionId == Some(row.bid.auctionId) &&
      exists u :: u in db.users && u.id == row.bid.userId && u.name == row.userName
    ensures forall b, u :: b in db.bids && u in db.users && u.id == b.userId && auctionId == Some(b.auctionId) ==>
      BidRow(b, u.name) in r
    ensures auctionId.None? ==> r == []
  {
    var joined := Join(db.bids, db.users, auctionId);
    var r := SortByAmountDesc(joined);
    assert auctionId.None? ==> r == [] by {
      if auctionId.None? {
        JoinOfNoAuction(db.bids, db.users);
        assert |multiset(r)| == 0;
      }
    }
    assert forall x :: x in r <==> x in joined by {
      forall x ensures x in r <==> x in joined {
        assert x in r <==> x in multiset(r);
        assert x in joined <==> x in multiset(joined);
      }
    }
    r
  }

  /** The three auctions `add_sample_data` inserts, by id. */
  function SampleAuction(id: int): (a: Auction)
    requires 1 <= id <= 3
    ensures a.id == id && a.currentBid == a.startingBid && a.status == Active
  {
    if id == 1 then
      Auction(1, "Toyota Camry 2022", "Like new with low mileage",
              15000, 15000, "2024-12-31 23:59:59", Active)
    else if id == 2 then
      Auction(2, "Ford Mustang GT", "Brand new sports car",
              45000, 45000, "2024-12-25 23:59:59", Active)
    else
      Auction(3, "Honda Civic 2021", "Well maintained, great condition",
              20000, 20000, "2024-12-20 23:59:59", Active)
  }

  /** The test user `add_sample_data` inserts. */
  function SampleUser(id: int): (u: User)
    ensures u.id == id
    ensures u.email == "test@example.com" && u.password == "password123" && u.name == "Test User"
  {
    User(id, "test@example.com", "password123", "Test User")
  }

  /** `add_sample_data`: drops and recreates the three tables, then inserts
      three auctions (current bid equal to starting bid) and one test user.
      The previous contents do not matter. */
  function SampleData(): (db: Db)
    ensures |db.auctions| == 3 && |db.users| == 1 && db.bids == []
    ensures forall a :: a in db.auctions ==> a.currentBid == a.startingBid && a.status == Active
  {
    Db(
      users := [SampleUser(1)],
      auctions := [SampleAuction(1), SampleAuction(2), SampleAuction(3)],
      bids := [],
      lastUserId := 1,
      lastAuctionId := 3,
      lastBidId := 0)
  }
}

=== FILE: store_invariants.dfy ===
/** What the store keeps true between operations, and what its operations
    promise when several of them are taken together. Nothing here is
    enforced by the schema except the primary keys and the UNIQUE email:
    one bid per user per auction rests on `place_bid` alone. */
module StoreInvariants {
  import opened Common
  import opened Store

  /** The highest amount bid on `auctionId`, or `floor` when no bid is
      higher. Folds from the end, the side new bids are appended on. */
  function HighestBid(bids: seq<Bid>, auctionId: int, floor: int): (m: int)
    ensures m >= floor
    ensures forall b :: b in bids && b.auctionId == auctionId ==> b.amount <= m
    ensures m == floor || exists b :: b in bids && b.auctionId == auctionId && b.amount == m
  {
    if |bids| == 0 then floor
    else
      var init := bids[..|bids| - 1];
      var last := bids[|bids| - 1];
      assert bids == init + [last];
      var m := HighestBid(init, auctionId, floor);
      if last.auctionId == auctionId && last.amount > m then last.amount else m
  }

  /** Primary key and UNIQUE email of `users`. */
  predicate UniqueUsers(users: seq<User>) {
    forall i, j :: 0 <= i < j < |users| ==> users[i].id != users[j].id && users[i].email != users[j].email
  }

  /** Primary key of `auctions`. */
  predicate UniqueAuctions(auctions: seq<Auction>) {
    forall i, j :: 0 <= i < j < |auctions| ==> auctions[i].id != auctions[j].id
  }

  /** Primary key of `bids`, and at most one bid per (auction, user) pair. */
  predicate OneBidPerBidder(bids: seq<Bid>) {
    forall i, j :: 0 <= i < j < |bids| ==>
      bids[i].id != bids[j].id &&
      (bids[i].auctionId != bids[j].auctionId || bids[i].userId != bids[j].userId)
  }

  /** Every id in a table was handed out by that table's sequence. */
  predicate IdsIssued(db: Db) {
    && db.lastUserId >= 0 && db.lastAuctionId >= 0 && db.lastBidId >= 0
    && (forall u :: u in db.users ==> 1 <= u.id <= db.lastUserId)
    && (forall a :: a in db.auctions ==> 1 <= a.id <= db.lastAuctionId)
    && (forall b :: b in db.bids ==> 1 <= b.id <= db.lastBidId)
  }

  /** Every bid refers to an existing auction (the bidder need not exist). */
  predicate BidsOnKnownAuctions(db: Db) {
    forall b :: b in db.bids ==> exists a :: a in db.auctions && a.id == b.auctionId
  }

  /** Each auction's current bid is the larger of its starting bid and its
      highest bid; in particular no bid on it exceeds its current bid. */
  predicate PricesTrackBids(db: Db) {
    forall a :: a in db.auctions ==> a.currentBid == HighestBid(db.bids, a.id, a.startingBid)
  }

  predicate Valid(db: Db) {
    && UniqueUsers(db.users)
    && UniqueAuctions(db.auctions)
    && OneBidPerBidder(db.bids)
    && IdsIssued(db)
    && BidsOnKnownAuctions(db)
    && PricesTrackBids(db)
  }

  // ---------------------------------------------------------------------
  // Helpers
  // ---------------------------------------------------------------------

  lemma HighestBidAppend(bids: seq<Bid>, nb: Bid, auctionId: int, floor: int)
    ensures HighestBid(bids + [nb], auctionId, floor) ==
      if nb.auctionId == auctionId && nb.amount > HighestBid(bids, auctionId, floor)
      then nb.amount else HighestBid(bids, auctionId, floor)
  {
    assert (bids + [nb])[..|bids|] == bids;
  }

  /** With unique ids, an auction is determined by its id. */
  lemma SameIdSameAuction(auctions: seq<Auction>, a: Auction, b: Auction)
    requires UniqueAuctions(auctions)
    requires a in auctions && b in auctions && a.id == b.id
    ensures a == b
  {
    var i :| 0 <= i < |auctions| && auctions[i] == a;
    var j :| 0 <= j < |auctions| && auctions[j] == b;
    assert i == j;
  }

  // ---------------------------------------------------------------------
  // place_bid
  // ---------------------------------------------------------------------

  /** A successful bid on a valid store names the one live auction with that
      id, whose current bid it exceeds. */
  lemma AcceptedBidTarget(db: Db, auctionId: Option<int>, userId: int, amount: int) returns (a: Auction)
    requires Valid(db)
    requires PlaceBid(db, auctionId, userId, amount).reply == BidPlaced
    ensures a in db.auctions && Live(a, auctionId) && a.currentBid < amount
    ensures forall x :: x in db.auctions && x.id == auctionId.value ==> x == a
  {
    a :| a in db.auctions && Live(a, auctionId) && a.currentBid < amount;
    forall x | x in db.auctions && x.id == auctionId.value
      ensures x == a
    {
      SameIdSameAuction(db.auctions, x, a);
    }
  }

  /** The tables after a successful bid, written out. */
  function AfterBid(db: Db, auctionId: int, userId: int, amount: int): Db {
    db.(bids := db.bids + [Bid(db.lastBidId + 1, auctionId, userId, amount)],
        lastBidId := db.lastBidId + 1,
        auctions := WithCurrentBid(db.auctions, auctionId, amount))
  }

  /** Raising a price keeps the auction ids where they were. */
  lemma NewPriceKeepsIds(auctions: seq<Auction>, id: int, amount: int, lastAuctionId: int)
    requires UniqueAuctions(auctions)
    requires forall x :: x in auctions ==> 1 <= x.id <= lastAuctionId
    ensures UniqueAuctions(WithCurrentBid(auctions, id, amount))
    ensures forall x :: x in WithCurrentBid(auctions, id, amount) ==> 1 <= x.id <= lastAuctionId
  {
    var r := WithCurrentBid(auctions, id, amount);
    assert forall i :: 0 <= i < |r| ==> r[i].id == auctions[i].id;
    forall x | x in r
      ensures 1 <= x.id <= lastAuctionId
    {
      var k :| 0 <= k < |r| && r[k] == x;
      assert auctions[k] in auctions;
    }
  }

  /** A bid with a fresh id by a user who has none on that auction keeps
      the bid keys. */
  lemma NewBidKeepsKeys(bids: seq<Bid>, nb: Bid)
    requires OneBidPerBidder(bids)
    requires forall b :: b in bids ==> b.id < nb.id
    requires !HasBid(bids, nb.auctionId, nb.userId)
    ensures OneBidPerBidder(bids + [nb])
  {
    var r := bids + [nb];
    forall i, j | 0 <= i < j < |r|
      ensures r[i].id != r[j].id
      ensures r[i].auctionId != r[j].auctionId || r[i].userId != r[j].userId
    {
      assert r[i] == bids[i] && bids[i] in bids;
      if j < |bids| {
        assert r[j] == bids[j];
      }
    }
  }

  lemma AcceptedBidKeepsKeys(db: Db, a: Auction, userId: int, amount: int)
    requires UniqueUsers(db.users) && UniqueAuctions(db.auctions) && OneBidPerBidder(db.bids) && IdsIssued(db)
    requires !HasBid(db.bids, a.id, userId)
    ensures var db' := AfterBid(db, a.id, userId, amount);
      UniqueUsers(db'.users) && UniqueAuctions(db'.auctions) && OneBidPerBidder(db'.bids) && IdsIssued(db')
  {
    var nb := Bid(db.lastBidId + 1, a.id, userId, amount);
    NewPriceKeepsIds(db.auctions, a.id, amount, db.lastAuctionId);
    NewBidKeepsKeys(db.bids, nb);
    assert forall b :: b in db.bids + [nb] ==> 1 <= b.id <= db.lastBidId + 1;
  }

  lemma AcceptedBidKeepsReferences(db: Db, a: Auction, userId: int, amount: int)
    requires BidsOnKnownAuctions(db) && a in db.auctions
    ensures BidsOnKnownAuctions(AfterBid(db, a.id, userId, amount))
  {
    var db' := AfterBid(db, a.id, userId, amount);
    forall b | b in db'.bids
      ensures exists y :: y in db'.auctions && y.id == b.auctionId
    {
      var x := a;
      if b in db.bids {
        x :| x in db.auctions && x.id == b.auctionId;
      }
      var k :| 0 <= k < |db.auctions| && db.auctions[k] == x;
      assert db'.auctions[k].id == b.auctionId;
      assert db'.auctions[k] in db'.auctions;
    }
  }

  lemma AcceptedBidKeepsPrices(db: Db, a: Auction, userId: int, amount: int)
    requires Valid(db) && a in db.auctions && a.currentBid < amount
    ensures PricesTrackBids(AfterBid(db, a.id, userId, amount))
  {
    var db' := AfterBid(db, a.id, userId, amount);
    var nb := Bid(db.lastBidId + 1, a.id, userId, amount);
    forall x | x in db'.auctions
      ensures x.currentBid == HighestBid(db'.bids, x.id, x.startingBid)
    {
      var k :| 0 <= k < |db'.auctions| && db'.auctions[k] == x;
      var before := db.auctions[k];
      assert before in db.auctions;
      HighestBidAppend(db.bids, nb, before.id, before.startingBid);
      if before.id == a.id {
        SameIdSameAuction(db.auctions, before, a);
      }
    }
  }

  /** `place_bid` keeps every invariant, whatever its outcome. */
  lemma PlaceBidPreservesValid(db: Db, auctionId: Option<int>, userId: int, amount: int)
    requires Valid(db)
    ensures Valid(PlaceBid(db, auctionId, userId, amount).db)
  {
    var r := PlaceBid(db, auctionId, userId, amount);
    if r.reply == BidPlaced {
      var a := AcceptedBidTarget(db, auctionId, userId, amount);
      assert r.db == AfterBid(db, a.id, userId, amount);
      AcceptedBidKeepsKeys(db, a, userId, amount);
      AcceptedBidKeepsReferences(db, a, userId, amount);
      AcceptedBidKeepsPrices(db, a, userId, amount);
    }
  }

  /** On success the target auction's current bid strictly rises to the
      amount, every other auction is untouched, old bids stay in place with
      one bid appended after them, and the users do not change. */
  lemma PlaceBidRaisesPrice(db: Db, auctionId: Option<int>, userId: int, amount: int)
    requires Valid(db)
    requires PlaceBid(db, auctionId, userId, amount).reply == BidPlaced
    ensures var db' := PlaceBid(db, auctionId, userId, amount).db;
      && |db'.auctions| == |db.auctions|
      && (forall i :: 0 <= i < |db.auctions| && db.auctions[i].id == auctionId.value ==>
            db'.auctions[i] == db.auctions[i].(currentBid := amount) &&
            db.auctions[i].currentBid < amount)
      && (forall i :: 0 <= i < |db.auctions| && db.auctions[i].id != auctionId.value ==>
            db'.auctions[i] == db.auctions[i])
      && |db'.bids| == |db.bids| + 1
      && db'.bids[..|db.bids|] == db.bids
      && db'.bids[|db.bids|].auctionId == auctionId.value
      && db'.bids[|db.bids|].userId == userId
      && db'.bids[|db.bids|].amount == amount
      && db'.users == db.users
  {
    var a := AcceptedBidTarget(db, auctionId, userId, amount);
    var db' := PlaceBid(db, auctionId, userId, amount).db;
    forall i | 0 <= i < |db.auctions| && db.auctions[i].id == auctionId.value
      ensures db.auctions[i].currentBid < amount
    {
      assert db.auctions[i] in db.auctions;
    }
    assert (db.bids + [db'.bids[|db.bids|]])[..|db.bids|] == db.bids;
  }

  /** On success the target auction's `bidder_count` goes up by exactly one
      (the bidder is new to it) and every other auction's stays the same. */
  lemma PlaceBidAddsOneBidder(db: Db, auctionId: Option<int>, userId: int, amount: int)
    requires PlaceBid(db, auctionId, userId, amount).reply == BidPlaced
    ensures var db' := PlaceBid(db, auctionId, userId, amount).db;
      && |Bidders(db'.bids, auctionId.value)| == |Bidders(db.bids, auctionId.value)| + 1
      && forall other :: other != auctionId.value ==> Bidders(db'.bids, other) == Bidders(db.bids, other)
  {
    var db' := PlaceBid(db, auctionId, userId, amount).db;
    var id := auctionId.value;
    var nb := db'.bids[|db.bids|];
    assert db'.bids == db.bids + [nb];
    assert Bidders(db'.bids, id) == Bidders(db.bids, id) + {userId};
    assert userId !in Bidders(db.bids, id);
    forall other | other != id
      ensures Bidders(db'.bids, other) == Bidders(db.bids, other)
    {
      assert forall b :: b in db'.bids && b.auctionId == other ==> b in db.bids;
    }
  }

  /** Sets every auction's end time to `t`. */
  function WithEndTimes(auctions: seq<Auction>, t: string): (r: seq<Auction>)
    ensures |r| == |auctions|
    ensures forall i :: 0 <= i < |r| ==> r[i] == auctions[i].(endTime := t)
  {
    seq(|auctions|, i requires 0 <= i < |auctions| => auctions[i].(endTime := t))
  }

  lemma {:induction false} FindLiveIgnoresEndTime(auctions: seq<Auction>, id: Option<int>, t: string)
    ensures FindLive(WithEndTimes(auctions, t), id) ==
      match FindLive(auctions, id)
      case None => None
      case Some(a) => Some(a.(endTime := t))
  {
    if |auctions| > 0 {
      assert WithEndTimes(auctions, t)[1..] == WithEndTimes(auctions[1..], t);
      FindLiveIgnoresEndTime(auctions[1..], id, t);
    }
  }

  /** `place_bid` never consults the end time: rewriting every auction's
      end time, to a past one say, changes no reply. */
  lemma PlaceBidIgnoresEndTime(db: Db, auctionId: Option<int>, userId: int, amount: int, t: string)
    ensures PlaceBid(db.(auctions := WithEndTimes(db.auctions, t)), auctionId, userId, amount).reply ==
            PlaceBid(db, auctionId, userId, amount).reply
  {
    FindLiveIgnoresEndTime(db.auctions, auctionId, t);
  }

  // ---------------------------------------------------------------------
  // register_user and login_user
  // ---------------------------------------------------------------------

  lemma RegisterPreservesValid(db: Db, email: string, password: string, name: string)
    requires Valid(db)
    ensures Valid(RegisterUser(db, email, password, name).db)
  {
    var r := RegisterUser(db, email, password, name);
    if !EmailInUse(db.users, email) {
      var users' := r.db.users;
      assert UniqueUsers(users') by {
        forall i, j | 0 <= i < j < |users'|
          ensures users'[i].id != users'[j].id && users'[i].email != users'[j].email
        {
          if j == |db.users| {
            assert users'[i] == db.users[i] && db.users[i] in db.users;
          } else {
            assert users'[i] == db.users[i] && users'[j] == db.users[j];
          }
        }
      }
    }
  }

  /** A fresh registration can log in at once with the same credentials,
      and gets back exactly the row just created. */
  lemma RegisterThenLogin(db: Db, email: string, password: string, name: string)
    requires Valid(db)
    requires !EmailInUse(db.users, email)
    ensures var r := RegisterUser(db, email, password, name);
      LoginUser(r.db, email, password) == LoggedIn(User(r.reply.userId, email, password, name))
  {
    var r := RegisterUser(db, email, password, name);
    var login := LoginUser(r.db, email, password);
    assert r.db.users[|db.users|] == User(r.reply.userId, email, password, name);
    assert login.LoggedIn?;
    assert forall x :: x in db.users ==> x.email != email;
  }

  /** Registering an address twice fails the second time and leaves exactly
      one user with that address. */
  lemma RegisterTwice(db: Db, email: string, p1: string, n1: string, p2: string, n2: string)
    requires !EmailInUse(db.users, email)
    ensures var first := RegisterUser(db, email, p1, n1);
      var second := RegisterUser(first.db, email, p2, n2);
      && second == Step(Failure(EmailTaken), first.db)
      && |set i | 0 <= i < |second.db.users| && second.db.users[i].email == email| == 1
  {
    var first := RegisterUser(db, email, p1, n1);
    var users := first.db.users;
    assert users[|db.users|].email == email;
    var s := set i | 0 <= i < |users| && users[i].email == email;
    assert forall k :: 0 <= k < |db.users| ==> users[k].email != email by {
      forall k | 0 <= k < |db.users|
        ensures users[k].email != email
      {
        assert users[k] == db.users[k] && db.users[k] in db.users;
      }
    }
    assert s == {|db.users|};
  }

  // ---------------------------------------------------------------------
  // add_sample_data
  // ---------------------------------------------------------------------

  lemma SampleDataValid()
    ensures Valid(SampleData())
  {
    var db := SampleData();
    assert forall i :: 0 <= i < |db.auctions| ==> db.auctions[i].id == i + 1 by {
      assert db.auctions == [SampleAuction(1), SampleAuction(2), SampleAuction(3)];
    }
    assert db.users[0].id == 1;
  }

  /** The seeded store after user 1 bids 15001 on auction 1. */
  function SeededAfterFirstBid(): Db {
    AfterBid(SampleData(), 1, 1, 15001)
  }

  /** On the seeded store a bid one unit above the starting price is
      accepted: there is no minimum increment, and the seeded end times, all
      in December 2024, are not checked. */
  lemma SeededFirstBid()
    ensures PlaceBid(SampleData(), Some(1), 1, 15001) == Step(BidPlaced, SeededAfterFirstBid())
    ensures SeededAfterFirstBid().bids == [Bid(1, 1, 1, 15001)]
    ensures SeededAfterFirstBid().auctions[0].currentBid == 15001
  {
    var db := SampleData();
    assert db.auctions[0] == SampleAuction(1);
    assert FindLive(db.auctions, Some(1)) == Some(SampleAuction(1));
    assert !HasBid(db.bids, 1, 1);
  }

  /** After that bid the same user is refused however high the amount. */
  lemma SeededRepeatBid(amount: int)
    ensures PlaceBid(SeededAfterFirstBid(), Some(1), 1, amount).reply == Failure(AlreadyBid)
  {
    SeededFirstBid();
    var db := SeededAfterFirstBid();
    assert db.bids[0] in db.bids;
    assert HasBid(db.bids, 1, 1);
  }

  /** The listing then counts one bidder on auction 1. */
  lemma SeededBidderCount()
    ensures |Bidders(SeededAfterFirstBid().bids, 1)| == 1
  {
    SeededFirstBid();
    LoneBidder(Bid(1, 1, 1, 15001));
  }

  /** A single bid makes a single bidder. */
  lemma LoneBidder(b: Bid)
    ensures Bidders([b], b.auctionId) == {b.userId}
  {
    assert b in [b];
  }

  /** Another user matching the new price is refused as too low. */
  lemma SeededMatchingBid()
    ensures PlaceBid(SeededAfterFirstBid(), Some(1), 2, 15001).reply == Failure(NotHigher)
  {
    SeededFirstBid();
    var db := SeededAfterFirstBid();
    assert !HasBid(db.bids, 1, 2);
    assert db.auctions[0] in db.auctions && Live(db.auctions[0], Some(1));
  }

  /** In a consistent store an id the auctions sequence has not handed out
      yet names no auction. */
  lemma UnissuedIdRefused(db: Db, id: int, userId: int, amount: int)
    requires Valid(db)
    requires id > db.lastAuctionId
    ensures PlaceBid(db, Some(id), userId, amount) == Step(Failure(NotFoundOrEnded), db)
  {
    assert forall a :: a in db.auctions ==> !Live(a, Some(id));
  }

  /** On the seeded store an id past the three auctions, or one that is not
      a number, is refused as not found. */
  lemma SeededUnknownAuction()
    ensures PlaceBid(SampleData(), Some(4), 2, 50000).reply == Failure(NotFoundOrEnded)
    ensures PlaceBid(SampleData(), None, 2, 50000).reply == Failure(NotFoundOrEnded)
  {
    SampleDataValid();
    UnissuedIdRefused(SampleData(), 4, 2, 50000);
  }

  /** `place_bid` never checks that the bidder exists, and `get_bids` inner
      joins with `users`, so a bid by an unknown user id is accepted, raises
      the price, and is then invisible in the bid history. */
  lemma UnknownBidderHidden(db: Db, auctionId: Option<int>, userId: int, amount: int)
    requires forall u :: u in db.users ==> u.id != userId
    requires PlaceBid(db, auctionId, userId, amount).reply == BidPlaced
    ensures var db' := PlaceBid(db, auctionId, userId, amount).db;
      forall row :: row in GetBids(db', auctionId) ==> row.bid.userId != userId
  {
  }

  /** With unique user ids, a bid's `user_id` matches at most one user. */
  lemma {:induction false} OneOwnerPerId(users: seq<User>, userId: int)
    requires UniqueUsers(users)
    ensures Count(users, OwnedBy(userId)) <= 1
  {
    if |users| > 0 {
      assert UniqueUsers(users[1..]) by {
        forall i, j | 0 <= i < j < |users[1..]|
          ensures users[1..][i].id != users[1..][j].id && users[1..][i].email != users[1..][j].email
        {
          assert users[1..][i] == users[i + 1] && users[1..][j] == users[j + 1];
        }
      }
      if users[0].id == userId {
        forall u | u in users[1..]
          ensures !OwnedBy(userId)(u)
        {
          var k :| 0 <= k < |users[1..]| && users[1..][k] == u;
          assert users[k + 1] == u;
        }
        CountNone(users[1..], OwnedBy(userId));
      } else {
        OneOwnerPerId(users[1..], userId);
      }
    }
  }

  /** Bids placed on one auction. */
  function PlacedOn(auctionId: Option<int>): Bid -> bool {
    (b: Bid) => auctionId == Some(b.auctionId)
  }

  /** With unique user ids the join adds no rows: at most one row per bid
      placed on the auction. */
  lemma {:induction false} JoinAtMostOneRowPerBid(bids: seq<Bid>, users: seq<User>, auctionId: Option<int>)
    requires UniqueUsers(users)
    ensures MatchCount(bids, users, auctionId) <= Count(bids, PlacedOn(auctionId))
  {
    if |bids| > 0 {
      OneOwnerPerId(users, bids[0].userId);
      JoinAtMostOneRowPerBid(bids[1..], users, auctionId);
    }
  }

  /** The history rows that show one bid. */
  function RowOf(b: Bid): BidRow -> bool {
    (row: BidRow) => row.bid == b
  }

  /** With unique user ids the join shows each bid at most as often as it
      is stored. */
  lemma {:induction false} JoinRowsPerBid(bids: seq<Bid>, users: seq<User>, auctionId: Option<int>, b: Bid)
    requires UniqueUsers(users)
    ensures Count(Join(bids, users, auctionId), RowOf(b)) <= multiset(bids)[b]
  {
    if |bids| > 0 {
      JoinStepCount(bids, users, auctionId, b);
      JoinRowsPerBid(bids[1..], users, auctionId, b);
      OneBidRowsOf(bids[0], users, auctionId, b);
      assert bids == [bids[0]] + bids[1..];
      assert multiset(bids)[b] == (if bids[0] == b then 1 else 0) + multiset(bids[1..])[b];
    }
  }

  /** The join's rows for one bid split into the first bid's and the rest's. */
  lemma JoinStepCount(bids: seq<Bid>, users: seq<User>, auctionId: Option<int>, b: Bid)
    requires |bids| > 0
    ensures Count(Join(bids, users, auctionId), RowOf(b))
         == Count(JoinOne(bids[0], users, auctionId), RowOf(b)) + Count(Join(bids[1..], users, auctionId), RowOf(b))
  {
    CountAppend(JoinOne(bids[0], users, auctionId), Join(bids[1..], users, auctionId), RowOf(b));
  }

  /** One bid's join rows show that bid, at most once with unique user ids. */
  lemma OneBidRowsOf(bid: Bid, users: seq<User>, auctionId: Option<int>, b: Bid)
    requires UniqueUsers(users)
    ensures Count(JoinOne(bid, users, auctionId), RowOf(b)) <= if bid == b then 1 else 0
  {
    var rows := JoinOne(bid, users, auctionId);
    if bid == b {
      OneOwnerPerId(users, b.userId);
      CountAtMostLength(rows, RowOf(b));
    } else {
      assert forall row :: row in rows ==> !RowOf(b)(row);
      CountNone(rows, RowOf(b));
    }
  }

  /** A bid stored once per id is stored at most once. */
  lemma {:induction false} DistinctBidsOnce(bids: seq<Bid>, b: Bid)
    requires OneBidPerBidder(bids)
    ensures multiset(bids)[b] <= 1
  {
    if |bids| > 0 {
      assert OneBidPerBidder(bids[1..]) by {
        forall i, j | 0 <= i < j < |bids[1..]|
          ensures bids[1..][i].id != bids[1..][j].id
        {
          assert bids[1..][i] == bids[i + 1] && bids[1..][j] == bids[j + 1];
        }
      }
      DistinctBidsOnce(bids[1..], b);
      assert bids == [bids[0]] + bids[1..];
      assert multiset(bids)[b] == multiset([bids[0]])[b] + multiset(bids[1..])[b];
      if bids[0] == b {
        assert b !in bids[1..] by {
          forall k | 0 <= k < |bids[1..]|
            ensures bids[1..][k] != b
          {
            assert bids[1..][k] == bids[k + 1];
          }
        }
      }
    }
  }

  /** The bid history of a valid store lists each bid at most once, and so
      has no more rows than there are bids on the auction. */
  lemma BidHistoryRowsBounded(db: Db, auctionId: Option<int>)
    requires Valid(db)
    ensures |GetBids(db, auctionId)| <= Count(db.bids, PlacedOn(auctionId))
    ensures forall b :: Count(GetBids(db, auctionId), RowOf(b)) <= 1
  {
    JoinAtMostOneRowPerBid(db.bids, db.users, auctionId);
    forall b
      ensures Count(GetBids(db, auctionId), RowOf(b)) <= 1
    {
      JoinRowsPerBid(db.bids, db.users, auctionId, b);
      CountSameMultiset(GetBids(db, auctionId), Join(db.bids, db.users, auctionId), RowOf(b));
      DistinctBidsOnce(db.bids, b);
    }
  }
}
